=== FILE: README.md ===
# EduBot chat core in Dafny

EduBot is a Streamlit chat page for Canara Engineering College. It answers
students by sending a hosted language model a long system instruction built
from the college's data file. This project models the three parts of the
program that hold logic:

- **The context builder** (`EduBot._create_system_instruction`). It renders
  the knowledge base into one text block: a fixed persona and rules, then the
  college, schedule, course, faculty, exam, event and quote sections, then
  fixed response guidelines.
- **The session** (`EduBot`). It keeps the student's name and the turn
  history. It builds the prompt for each question, records turns, turns a
  failed model call into an apology, greets the student, stores the name and
  clears itself.
- **The chat page flow** (app.py). It initialises the page state, posts the
  one-time greeting, accepts or ignores the text box, routes the first
  accepted message to the name setter and every later one to the model, and
  handles the Clear Chat button.

Modules, one per file:

- `Optional` holds `Option` and `GetOr`. `GetOr` is `dict.get` with a default.
- `KnowledgeBase` is the parsed data file. A JSON object whose key order
  shows in the rendered text is a sequence of (key, value) pairs in file
  order. Records with fixed fields are datatypes. An optional key is an `Option`. The faculty
  entry has two shapes: `Grouped` (by department) and `Flat` (the older list).
- `Text` holds the parts of Python's `str` the program uses:
  - `strip`, with Python's exact `isspace` set;
  - ASCII `upper`, `capitalize` and `title`;
  - single-character `replace`;
  - `str(n)` for naturals.

  It also holds the layout vocabulary the properties are stated in:
  - `ContainsAt`: a text occurs at an offset;
  - `Precedes`: one text occurs wholly before another;
  - `Concat`: the `+=` loop.
- `ContextBuilder` holds one renderer per loop of the builder. `Instruction(t, kb)`
  appends the nine sections in the program's order. The two fixed texts are
  the persona and the guidelines. They form a `Template` parameter, and
  `Render(kb)` is `Instruction(EduBotTemplate, kb)` with the program's exact
  texts. Every structural property holds for every template, so it holds in
  particular for the real one.
- `ContextLayout` states where each piece of the data lands in the rendered
  block, and in what order.
- `Session` models the `EduBot` object as an immutable value. Every operation
  returns the new bot, and the reply where there is one.
- `ChatFlow` models the page's `st.session_state`. `Run` is one execution of
  the page script for one interaction: the text box contents, Send pressed,
  Clear Chat pressed. The invariant `Inv` holds across any number of runs.

Two outside values are parameters:

- The model call is `generate: string -> Generation`. It returns the reply
  text or the failure's message.
- Today's date is `today`, an already formatted string.

## Model

| member | source | states |
|---|---|---|
| Text.Strip | chatbot_logic.py:173 | The result is the input without its leading and trailing Python-whitespace run, and nothing else. It is empty exactly when the input is all whitespace. |
| Text.StripIdempotent | chatbot_logic.py:173 | Stripping a stripped name changes nothing. |
| Text.Capitalize | chatbot_logic.py:60 | Same length. The first character is upper-cased and every later character is lower-cased. |
| Text.Upper | chatbot_logic.py:76 | Same length, and every character is upper-cased. |
| Text.Title | chatbot_logic.py:92 | Same length, and non-letters are kept. A letter is upper case exactly when it starts a word (first, or after a non-letter). Every character keeps its letter. |
| Text.ReplaceChar | chatbot_logic.py:92 | Same length. Every occurrence of the old character becomes the new one, and every other character is kept. |
| Text.NatToString | chatbot_logic.py:107-108 | The numeral for a quote number is non-empty and made of decimal digits, with no leading zero except for 0 itself. Its partner NatToStringRoundTrip shows it reads back as the number. |
| Text.NatToStringRoundTrip | chatbot_logic.py:107-108 | The numeral printed before a quote reads back as the quote's number. |
| Text.NatToStringInjective | chatbot_logic.py:107-108 | Different quote numbers print as different numerals. |
| ContextBuilder.ExamLabel | chatbot_logic.py:92 | The category label has the key's length and no underscore. Each underscore becomes a space, and other non-letters are kept. Letters keep their letter and are upper case exactly at word starts. |
| ContextBuilder.SectionTexts | chatbot_logic.py:32-122 | There is exactly one text per section kind, at that kind's rank in the fixed order. |
| ContextBuilder.SectionPresence | chatbot_logic.py:32-122 | A section that is present opens with its header. A section is empty exactly when it is absent, that is, when `college_info` or `course_details` is missing. |
| ContextBuilder.InstructionAppendsSections | chatbot_logic.py:32-122 | The instruction is the nine section texts appended in order: preamble, college, schedules, courses, faculty, exams, events, quotes, guidelines. |
| ContextBuilder.SectionAt | chatbot_logic.py:32-122 | Every section text occurs in the instruction. A present section's header occurs where its section starts. |
| ContextBuilder.SectionsInFixedOrder | chatbot_logic.py:32-122 | A section of lower rank ends before a section of higher rank begins, whatever the data. |
| ContextBuilder.HeadersInFixedOrder | chatbot_logic.py:32-122 | When both sections are present, the headers appear in the fixed order. |
| ContextBuilder.Instruction | chatbot_logic.py:32-122 | Definition: the nine sections appended for a given template. Its properties are in InstructionAppendsSections, SectionAt, SectionsInFixedOrder, HeadersInFixedOrder and the ContextLayout lemmas, all stated for every template. |
| ContextBuilder.Render | chatbot_logic.py:32-122 | Definition: Instruction over the program's own persona and guideline texts. Every property of Instruction therefore holds for it. |
| ContextBuilder.CollegeSection | chatbot_logic.py:50-55 | Definition of the college lines. Properties in SectionPresence and CollegeInfoShown. |
| ContextBuilder.ScheduleSection | chatbot_logic.py:57-60 | Definition of the schedules section. Properties in ScheduleListed, SchedulesInInputOrder and DayBlockShape. |
| ContextBuilder.CourseSection | chatbot_logic.py:62-68 | Definition of the course section. Properties in SectionPresence, CourseListed and CoursesInInputOrder. |
| ContextBuilder.FacultySection | chatbot_logic.py:70-87 | Definition of the faculty directory in both shapes. Properties in DeptHeadingListed, MemberAt, GroupedMemberListed, FlatEntryListed, FlatEntryFields and the order lemmas. |
| ContextBuilder.ExamSection | chatbot_logic.py:89-96 | Definition of the exam timetable. Properties in ExamLabel, ExamBlockAt, ExamLineListed, ExamEntriesInInputOrder and the note lemmas. |
| ContextBuilder.EventSection | chatbot_logic.py:98-102 | Definition of the events section. Properties in EventUnderHeading and EventsInInputOrder. |
| ContextBuilder.QuoteSection | chatbot_logic.py:104-108 | Definition of the quotes section. Properties in QuoteSectionGrows, QuoteListed, QuoteLineNumbered and QuotesNumberedInOrder. |
| ContextLayout.CollegeInfoShown | chatbot_logic.py:51-55 | With `college_info` present, the college, department and year/semester lines appear one after another. Each missing field is replaced by its documented default. |
| ContextLayout.ScheduleListed | chatbot_logic.py:57-60 | Every day's block appears after the schedules header. |
| ContextLayout.SchedulesInInputOrder | chatbot_logic.py:59 | Day blocks appear in the data's order. |
| ContextLayout.DayBlockShape | chatbot_logic.py:60 | The day name is capitalised, and the schedule text follows `:` and a newline verbatim. |
| ContextLayout.CourseListed | chatbot_logic.py:62-68 | With `course_details` present, every course block appears after the course header. |
| ContextLayout.CoursesInInputOrder | chatbot_logic.py:65 | Course blocks appear in the data's order. |
| ContextLayout.DepartmentsInInputOrder | chatbot_logic.py:74-77 | Department headings appear in the data's order. |
| ContextLayout.DeptHeadingListed | chatbot_logic.py:71-77 | Every department's heading appears after the faculty header, including a department with no members. |
| ContextLayout.DeptHeadingUpperCase | chatbot_logic.py:76-77 | The department heading holds the upper-cased code, with no lower-case letter in it. |
| ContextLayout.MemberAt | chatbot_logic.py:75-81 | Every grouped member's block appears after its department's heading. |
| ContextLayout.GroupedMemberListed | chatbot_logic.py:78-81 | A grouped member appears under the department heading. The member's headline (designation defaulting to "Faculty"), subject line and contact line (email and phone defaulting to "N/A") come in a row. |
| ContextLayout.GroupedMembersInInputOrder | chatbot_logic.py:78 | Members of a department appear in the data's order. |
| ContextLayout.FlatEntryListed | chatbot_logic.py:82-87 | In the flat shape, every entry's block appears after the faculty header. |
| ContextLayout.FlatEntryFields | chatbot_logic.py:85-87 | A flat entry's block is its headline, then its subject line, then its contact line, and nothing more. The name, department, subject, email and phone appear verbatim, with no defaults. |
| ContextLayout.FlatEntriesInInputOrder | chatbot_logic.py:84 | Flat entries appear in the data's order. |
| ContextLayout.ExamBlockOpensWithHeading | chatbot_logic.py:92 | A category's block starts with its label-and-date heading. |
| ContextLayout.ExamCategoriesInInputOrder | chatbot_logic.py:91 | Exam categories appear in the data's order. |
| ContextLayout.ExamBlockAt | chatbot_logic.py:89-96 | Every category's block appears in the instruction. |
| ContextLayout.ExamLineListed | chatbot_logic.py:93-94 | Every exam line `"  - " + entry` of a category appears after the category's heading. This includes the last line and the only line of a one-exam category. |
| ContextLayout.ExamEntriesInInputOrder | chatbot_logic.py:93-94 | The exam lines of a category keep the data's order. |
| ContextLayout.ExamNoteOnlyWhenPresent | chatbot_logic.py:95-96 | Without a note, the block is exactly the heading followed by the exam lines, so it has no note line. With a note, the block is that text plus exactly the note line. |
| ContextLayout.ExamNoteShown | chatbot_logic.py:95-96 | A present note's line appears after its category heading. |
| ContextLayout.EventUnderHeading | chatbot_logic.py:99-105 | Every event's block lies between the events header and the quotes header. |
| ContextLayout.EventsInInputOrder | chatbot_logic.py:100 | Events appear in the data's order. |
| ContextLayout.QuoteListed | chatbot_logic.py:105-108 | The i-th quote's line appears after the quotes header and intro. |
| ContextLayout.QuoteLineNumbered | chatbot_logic.py:108 | A quote line starts with a numeral that reads back as its number, followed by `. ` and the quote. |
| ContextLayout.QuoteSectionGrows | chatbot_logic.py:105-108 | Appending a quote to the data appends exactly one line to the section, numbered with the new count. |
| ContextLayout.QuotesNumberedInOrder | chatbot_logic.py:107 | Quote lines, numbered from 1, appear in the data's order. |
| Session.CountRoleSnoc | chatbot_logic.py:128-159 | Appending a turn adds one to its role's count, and nothing to the other role's. |
| Session.HasName | chatbot_logic.py:135 | Definition of the truthiness test on the stored name (also used on line 167): a name is known only when it is set and non-empty, so a stored empty name counts as none. Properties in NameKnownIffNotBlank, PromptNameShown and WelcomeMessage. |
| Session.Init | chatbot_logic.py:26-30 | Definition: no name, no turns, and the instruction rendered from the data. Properties in ClearRestoresInit and ChatFlow.StartInv. |
| Session.Context | chatbot_logic.py:134-141 | Definition of the request context. Properties in ContextInPrompt and PromptNameShown. |
| Session.Prompt | chatbot_logic.py:134-144 | Definition of the full prompt. Properties in PromptFrame, ContextInPrompt, PromptNameShown and PromptIgnoresHistory. |
| Session.PromptFrame | chatbot_logic.py:134-145 | The prompt starts with the system instruction and ends with "User message: " and the student's text. |
| Session.ContextInPrompt | chatbot_logic.py:134-142 | Three parts follow one another: the instruction, the name block, and the date line. |
| Session.PromptNameShown | chatbot_logic.py:135-138 | With a non-empty name, the name line directly follows the instruction. Without one, the date line follows it directly. |
| Session.PromptIgnoresHistory | chatbot_logic.py:134-145 | The prompt does not depend on the stored turns. |
| Session.Apology | chatbot_logic.py:163 | The apology opens with the warning text, carries the error message verbatim, and closes with the retry advice. Its length is exactly those three parts. |
| Session.GetResponse | chatbot_logic.py:124-163 | Name and instruction are kept, and the old history is kept as a prefix. The user's turn is always recorded. Exactly two turns are added iff the model call succeeds. On success the model's text is returned unchanged and recorded. On failure only the user turn is added, and the reply is exactly the apology for the error. |
| Session.GetResponseCounts | chatbot_logic.py:128-159 | One user turn is added. One model turn is added iff the call succeeds. A history where every model turn answers a user turn stays so. |
| Session.WelcomeMessage | chatbot_logic.py:165-169 | With a non-empty name, it is exactly the welcome-back opening, the name and the welcome-back closing, with nothing added. Otherwise it is the hello prompt. |
| Session.Introduction | chatbot_logic.py:174-182 | The reply is exactly three parts: "Nice to meet you, **", the name, then the closing of the name line, the help menu and the closing question. |
| Session.SetUserName | chatbot_logic.py:171-183 | History and instruction are kept. The stored name is the input stripped of surrounding whitespace. The reply is the introduction for that stored name. |
| Session.NameKnownIffNotBlank | chatbot_logic.py:173 | After naming, the bot counts as knowing a name exactly when the input was not all whitespace. |
| Session.SetUserNameLastWins | chatbot_logic.py:171-173 | Naming twice is the same as naming once with the second input. |
| Session.StoredNameIsStripped | chatbot_logic.py:173 | The stored name has no surrounding whitespace. |
| Session.WelcomeAfterNaming | chatbot_logic.py:165-173 | After naming with a non-blank input, the welcome message greets the stripped name. |
| Session.ClearRestoresInit | chatbot_logic.py:26-30 | Clearing a bot built from a knowledge base gives exactly the freshly built bot. |
| Session.ClearForgets | chatbot_logic.py:185-188 | After clearing, the bot knows no name, has no turns, and greets with the hello prompt. Clearing twice is clearing once. |
| Session.ClearHistory | chatbot_logic.py:185-188 | Definition. Properties in ClearForgets and ClearRestoresInit. |
| ChatFlow.Greet | app.py:231-238 | The greeting runs only on the first run after start or after Clear Chat, which resets the started flag. Then it appends exactly the greeting, plus the name question while the name is awaited. It marks the conversation started and touches nothing else. |
| ChatFlow.GreetOnce | app.py:231-233 | Greeting a greeted page changes nothing. |
| ChatFlow.Start | app.py:210-216 | Definition of the initial page state. Properties in StartInv and ClearChatRestarts. |
| ChatFlow.Accepts | app.py:270 | Definition of the input guard. Property in AcceptsIffNotBlank. |
| ChatFlow.ClearChat | app.py:324-330 | Definition of the Clear Chat handler. Property in ClearChatRestarts. |
| ChatFlow.Run | app.py:231-330 | Definition of one page run. Properties in RunInv, BlankInputChangesNothing and AcceptedMessageWinsOverClear. |
| ChatFlow.RunAll | app.py:210-330 | Definition of a sequence of runs. Property in RunAllInv. |
| ChatFlow.AcceptsIffNotBlank | app.py:270 | A message is accepted exactly when it is not all whitespace, whether or not Send was pressed. |
| ChatFlow.Post | app.py:272-296 | An accepted message bumps the counter and ends the name wait. It appends exactly the student's entry and the bot's answer, and installs the answering bot. |
| ChatFlow.Submit | app.py:270-300 | A blank message changes nothing. An accepted message bumps the counter, ends the name wait, keeps the instruction, and appends the message as typed followed by one bot entry. While the name is awaited, the stripped message becomes the name, no turn is recorded, and the bot entry is the introduction for that name. Afterwards the bot keeps its name and records the user turn, plus the model turn when the model answers; the bot entry is the model's text or the apology for the error. |
| ChatFlow.StartInv | app.py:210-216 | The initial page state satisfies the session invariant. |
| ChatFlow.GreetInv | app.py:231-238 | The greeting keeps the invariant. |
| ChatFlow.TranscriptGrows | app.py:276-296 | A student entry followed by a bot entry extends a well-shaped transcript by one exchange. |
| ChatFlow.AnsweredBotInv | app.py:285-294 | After either branch, the bot keeps its instruction, knows a non-empty name, has one user turn for each message after the first, and keeps every model turn answering a user turn. |
| ChatFlow.PostInv | app.py:272-296 | Posting an answer from such a bot keeps the invariant. |
| ChatFlow.SubmitInv | app.py:270-300 | Processing the text box keeps the invariant. |
| ChatFlow.ClearChatRestarts | app.py:324-330 | Clear Chat returns any reachable page state to exactly the initial one. |
| ChatFlow.RunInv | app.py:231-330 | One run of the page script keeps the invariant. |
| ChatFlow.RunAllInv | app.py:210-330 | The invariant holds after any sequence of runs from the start. |
| ChatFlow.FirstMessageNamesStudent | app.py:285-290 | The first accepted message becomes the stripped, non-empty student name, and records no model turn. |
| ChatFlow.LaterMessagesNameTheStudent | app.py:291-294 | Every later message is sent with the student's name line right after the instruction. |
| ChatFlow.BlankInputChangesNothing | app.py:270 | On a greeted page, a blank message without a Clear Chat click leaves the state unchanged. |
| ChatFlow.AcceptedMessageWinsOverClear | app.py:298-330 | When a message is accepted, the rerun skips the Clear Chat button. Exactly one message is counted. |

## Left out

- Loading `data.json`, `load_dotenv` and the API-key checks (chatbot_logic.py:9, chatbot_logic.py:14-24, app.py:205-207). The knowledge base is a parameter, and a failed start, where `EduBot()` raises, is not modelled.
- The Gemini client. Each call is the `generate` parameter, and any exception it raises is its `Failed(message)` result. `str(e)` is that message.
- `response.text` being `None` is not modelled. A successful call always yields text.
- `datetime.now().strftime(...)`. The date is the already formatted `today` parameter.
- The Streamlit page: CSS, header, bubble display, typing indicator, `time.sleep`, the widget keys and `st.rerun`. A rerun is the end of one `Run`.
- JSON values that are not strings. The data file's scalars are modelled as strings, because f-string formatting of a string is the string itself.
- Duplicate keys in a JSON mapping. The model keeps mappings as ordered pair lists, and the order is `dict` insertion order.
- Unicode case mapping. `upper`, `capitalize` and `title` map ASCII letters only, and treat every other character as uncased.
- Text.Title: Python's title-casing treats any cased Unicode character as part of a word; the model counts ASCII letters only.
- The emoji are written as code points. The app.py greeting and name question use the real emoji. The chatbot_logic.py texts keep the source's mis-decoded characters as they stand: the apology opening, the welcome-back closing, the hello prompt, the closing of the name line, and the help menu. The model does not interpret these characters; properties say where the fixed texts and the variable parts occur.
- Occurrence counts: no property states that a faculty member's fields occur exactly once in the instruction. Data values can repeat each other and the fixed texts, so the count is not a property of the program. For the same reason, the quote count is stated over the section's structure (ContextLayout.QuoteSectionGrows: one numbered line per quote). It is not stated as a count of line breaks in the rendered text, because a quote may itself contain line breaks or numbered lines.
- The per-turn history is never sent to the model. Failure replies are shown on the page but not stored as model turns. The model follows the code on both points.

=== FILE: chat_flow.dfy ===
/**
 The chat page's session state and what one run of the page script does to
 it (app.py:209-330): the one-time greeting, accepting a message, routing
 the first accepted message to the name setter and every later one to the
 model, and the Clear Chat button.

 One run of the script handles one interaction: the text in the input box,
 whether Send was pressed, whether Clear Chat was pressed, plus the date and
 the model call the bot needs. The run greets first when the conversation has
 not started; it then processes an accepted message and reruns, so that a
 Clear Chat click in the same run is never reached; otherwise it clears the
 chat when Clear Chat was pressed.
 */
module ChatFlow {
  import opened Optional
  import opened Text
  import opened KnowledgeBase
  import opened ContextBuilder
  import opened Session

  datatype Sender = UserSide | BotSide

  /** One `(sender, message)` pair of `chat_history`. */
  datatype ChatEntry = ChatEntry(sender: Sender, text: string)

  /** The page's session state. */
  datatype AppState = AppState(
    chatHistory: seq<ChatEntry>,
    awaitingName: bool,
    conversationStarted: bool,
    messageCount: nat,
    bot: EduBot)

  /** What the student did before the run, and what the run needs from outside. */
  datatype Interaction = Interaction(
    input: string,
    sendPressed: bool,
    clearPressed: bool,
    today: string,
    generate: string -> Generation)

  const Greeting: string :=
    "Hello! \U{1F44B} I'm **EduBot**, your AI-powered college assistant. I'm here to help you with class schedules, faculty details, exam timetables, and college events!"
  const NameQuestion: string := "What's your name? \U{1F60A}"

  /** The state the first run creates. */
  function Start(kb: Data): AppState {
    AppState([], true, false, 0, Init(kb))
  }

  /** The greeting block: on the first run of a conversation, mark it started and
      post the greeting, then the name question while the name is awaited. */
  function Greet(st: AppState): (r: AppState)
    ensures r.conversationStarted
    ensures st.conversationStarted ==> r == st
    ensures !st.conversationStarted ==>
      |r.chatHistory| > |st.chatHistory|
      && r.chatHistory[..|st.chatHistory|] == st.chatHistory
      && r.chatHistory[|st.chatHistory|..] ==
         [ChatEntry(BotSide, Greeting)] + (if st.awaitingName then [ChatEntry(BotSide, NameQuestion)] else [])
    ensures r.awaitingName == st.awaitingName && r.messageCount == st.messageCount && r.bot == st.bot
  {
    if st.conversationStarted then st
    else
      var greeted := st.chatHistory + [ChatEntry(BotSide, Greeting)];
      var posted := if st.awaitingName then greeted + [ChatEntry(BotSide, NameQuestion)] else greeted;
      assert posted[..|st.chatHistory|] == st.chatHistory;
      st.(conversationStarted := true, chatHistory := posted)
  }

  /** The input guard `(send_button or user_input) and user_input.strip()`. */
  predicate Accepts(sendPressed: bool, input: string) {
    (sendPressed || input != "") && Strip(input) != ""
  }

  /** Posting one exchange: the counter moves on, the name is no longer awaited,
      the message as typed and then the answer's text close the transcript, and
      the bot becomes the one the answer left. */
  function Post(st: AppState, input: string, answer: Reply): (r: AppState)
    ensures r.messageCount == st.messageCount + 1 && !r.awaitingName
    ensures r.conversationStarted == st.conversationStarted && r.bot == answer.bot
    ensures |r.chatHistory| == |st.chatHistory| + 2
    ensures r.chatHistory[..|st.chatHistory|] == st.chatHistory
    ensures r.chatHistory[|st.chatHistory|] == ChatEntry(UserSide, input)
    ensures r.chatHistory[|st.chatHistory| + 1] == ChatEntry(BotSide, answer.text)
  {
    var posted := st.chatHistory + [ChatEntry(UserSide, input), ChatEntry(BotSide, answer.text)];
    assert posted[..|st.chatHistory|] == st.chatHistory;
    st.(messageCount := st.messageCount + 1, awaitingName := false, bot := answer.bot, chatHistory := posted)
  }

  /** Processing the input box. A blank message changes nothing. An accepted one
      is counted, ends the name wait, and is posted as typed, followed by the
      bot's answer. While the name is awaited the message becomes the stripped
      name and the answer is the introduction, with no turn recorded. Afterwards
      the message goes to the model: the user turn is recorded, and the model's
      text too when it answers. The answer is that text, or the apology for the
      error. */
  function Submit(st: AppState, sendPressed: bool, input: string, today: string,
                  generate: string -> Generation): (r: AppState)
    ensures !Accepts(sendPressed, input) ==> r == st
    ensures Accepts(sendPressed, input) ==>
      r.messageCount == st.messageCount + 1 && !r.awaitingName
      && r.conversationStarted == st.conversationStarted
      && r.bot.instruction == st.bot.instruction
      && |r.chatHistory| == |st.chatHistory| + 2
      && r.chatHistory[..|st.chatHistory| + 1] == st.chatHistory + [ChatEntry(UserSide, input)]
    ensures Accepts(sendPressed, input) && st.awaitingName ==>
      r.bot.userName == Some(Strip(input)) && r.bot.history == st.bot.history
      && r.chatHistory[|st.chatHistory| + 1] == ChatEntry(BotSide, Introduction(Strip(input)))
    ensures Accepts(sendPressed, input) && !st.awaitingName ==>
      var g := generate(Prompt(st.bot, input, today));
      r.bot.userName == st.bot.userName
      && r.bot.history == st.bot.history + [Turn(User, input)] + (if g.Generated? then [Turn(Model, g.text)] else [])
      && r.chatHistory[|st.chatHistory| + 1] == ChatEntry(BotSide, if g.Generated? then g.text else Apology(g.error))
  {
    if !Accepts(sendPressed, input) then st
    else if st.awaitingName then
      PostOpensWithMessage(st, input, SetUserName(st.bot, input));
      NamedReply(st.bot, input);
      Post(st, input, SetUserName(st.bot, input))
    else
      PostOpensWithMessage(st, input, GetResponse(st.bot, input, today, generate));
      AnsweredHistory(st.bot, input, today, generate);
      Post(st, input, GetResponse(st.bot, input, today, generate))
  }

  /** A posted exchange opens with the message as typed, right after the old transcript. */
  lemma PostOpensWithMessage(st: AppState, input: string, answer: Reply)
    ensures Post(st, input, answer).chatHistory[..|st.chatHistory| + 1] == st.chatHistory + [ChatEntry(UserSide, input)]
  {
    var h := Post(st, input, answer).chatHistory;
    assert h[..|st.chatHistory| + 1] == h[..|st.chatHistory|] + [h[|st.chatHistory|]];
  }

  /** Naming stores the stripped input and replies with the introduction for it. */
  lemma NamedReply(b: EduBot, raw: string)
    ensures SetUserName(b, raw).bot.userName == Some(Strip(raw))
    ensures SetUserName(b, raw).text == Introduction(Strip(raw))
  {
  }

  /** The turns a model call leaves: the user's, then the model's when it answered. */
  lemma AnsweredHistory(b: EduBot, input: string, today: string, generate: string -> Generation)
    ensures var g := generate(Prompt(b, input, today));
      GetResponse(b, input, today, generate).bot.history
      == b.history + [Turn(User, input)] + (if g.Generated? then [Turn(Model, g.text)] else [])
  {
  }

  /** The Clear Chat button: empty the transcript, await the name again, let the
      greeting run again, reset the counter, and clear the bot's history and name. */
  function ClearChat(st: AppState): AppState {
    st.(chatHistory := [], awaitingName := true, conversationStarted := false, messageCount := 0,
        bot := ClearHistory(st.bot))
  }

  /** One run of the page script. */
  function Run(st: AppState, x: Interaction): AppState {
    var shown := Greet(st);
    if Accepts(x.sendPressed, x.input) then Submit(shown, x.sendPressed, x.input, x.today, x.generate)
    else if x.clearPressed then ClearChat(shown)
    else shown
  }

  /** A sequence of runs, in order. */
  function RunAll(st: AppState, xs: seq<Interaction>): AppState
    decreases |xs|
  {
    if |xs| == 0 then st else RunAll(Run(st, xs[0]), xs[1..])
  }

  /* ---------------- The session invariant ---------------- */

  /** A started transcript: the greeting and the name question, then `n`
      exchanges, each a non-blank student message followed by the bot's answer. */
  predicate Transcript(h: seq<ChatEntry>, n: nat) {
    |h| == 2 + 2 * n
    && h[0] == ChatEntry(BotSide, Greeting)
    && h[1] == ChatEntry(BotSide, NameQuestion)
    && (forall i :: 2 <= i < |h| ==> h[i].sender == (if i % 2 == 0 then UserSide else BotSide))
    && (forall i :: 2 <= i < |h| && i % 2 == 0 ==> !IsBlank(h[i].text))
  }

  /** What holds between runs for a page whose bot was built with `instruction`:
      the name is awaited exactly until the first message is accepted; until then
      the bot knows no name and has no turns; afterwards it knows a non-empty name
      and has one user turn for every message after the first. */
  predicate Inv(instruction: string, st: AppState) {
    && st.bot.instruction == instruction
    && (st.awaitingName <==> st.messageCount == 0)
    && (st.awaitingName ==> st.bot.userName.None? && st.bot.history == [])
    && (!st.awaitingName ==> HasName(st.bot) && CountRole(st.bot.history, User) == st.messageCount - 1)
    && WellFormed(st.bot.history)
    && (!st.conversationStarted ==> st.chatHistory == [] && st.awaitingName)
    && (st.conversationStarted ==> Transcript(st.chatHistory, st.messageCount))
  }

  /* ---------------- Properties ---------------- */

  /** The guard accepts exactly the messages that are not all whitespace; whether
      Send was pressed makes no difference. */
  lemma AcceptsIffNotBlank(sendPressed: bool, input: string)
    ensures Accepts(sendPressed, input) <==> !IsBlank(input)
  {
    if input == "" {
      assert IsBlank(input);
    }
  }

  /** The greeting is posted once: greeting an already greeted page changes nothing. */
  lemma GreetOnce(st: AppState)
    ensures Greet(Greet(st)) == Greet(st)
  {
  }

  /** The first run's state satisfies the invariant. */
  lemma StartInv(kb: Data)
    ensures Inv(Render(kb), Start(kb))
  {
  }

  lemma GreetInv(instruction: string, st: AppState)
    requires Inv(instruction, st)
    ensures Inv(instruction, Greet(st))
  {
    if !st.conversationStarted {
      var r := Greet(st);
      assert r.chatHistory == [ChatEntry(BotSide, Greeting), ChatEntry(BotSide, NameQuestion)];
    }
  }

  /** An exchange of a non-blank student message and a bot answer extends a transcript. */
  lemma TranscriptGrows(h: seq<ChatEntry>, n: nat, input: string, answer: string)
    requires Transcript(h, n) && !IsBlank(input)
    ensures Transcript(h + [ChatEntry(UserSide, input)] + [ChatEntry(BotSide, answer)], n + 1)
  {
    var h' := h + [ChatEntry(UserSide, input)] + [ChatEntry(BotSide, answer)];
    forall i | 2 <= i < |h'|
      ensures h'[i].sender == (if i % 2 == 0 then UserSide else BotSide)
      ensures i % 2 == 0 ==> !IsBlank(h'[i].text)
    {
      if i < |h| {
        assert h'[i] == h[i];
      }
    }
  }

  /** The bot after an accepted message satisfies the bot's part of the invariant. */
  lemma AnsweredBotInv(instruction: string, st: AppState, input: string, today: string,
                       generate: string -> Generation, bot': EduBot)
    requires Inv(instruction, st) && !IsBlank(input)
    requires st.awaitingName ==> bot' == SetUserName(st.bot, input).bot
    requires !st.awaitingName ==> bot' == GetResponse(st.bot, input, today, generate).bot
    ensures bot'.instruction == instruction && HasName(bot') && WellFormed(bot'.history)
    ensures CountRole(bot'.history, User) == st.messageCount
  {
    if st.awaitingName {
      NameKnownIffNotBlank(st.bot, input);
    } else {
      GetResponseCounts(st.bot, input, today, generate);
    }
  }

  /** Posting a non-blank message with an answer whose bot is in order keeps the invariant. */
  lemma PostInv(instruction: string, st: AppState, input: string, answer: Reply)
    requires Inv(instruction, st) && st.conversationStarted && !IsBlank(input)
    requires answer.bot.instruction == instruction && HasName(answer.bot) && WellFormed(answer.bot.history)
    requires CountRole(answer.bot.history, User) == st.messageCount
    ensures Inv(instruction, Post(st, input, answer))
  {
    var r := Post(st, input, answer);
    assert r.chatHistory == st.chatHistory + [ChatEntry(UserSide, input)] + [ChatEntry(BotSide, answer.text)];
    TranscriptGrows(st.chatHistory, st.messageCount, input, answer.text);
  }

  /** Accepting a message on a started page keeps the invariant. */
  lemma SubmitInv(instruction: string, st: AppState, sendPressed: bool, input: string, today: string,
                  generate: string -> Generation)
    requires Inv(instruction, st) && st.conversationStarted
    ensures Inv(instruction, Submit(st, sendPressed, input, today, generate))
  {
    if Accepts(sendPressed, input) {
      AcceptsIffNotBlank(sendPressed, input);
      var answer := if st.awaitingName then SetUserName(st.bot, input) else GetResponse(st.bot, input, today, generate);
      AnsweredBotInv(instruction, st, input, today, generate, answer.bot);
      PostInv(instruction, st, input, answer);
    }
  }

  /** Clearing the chat of a page built for `kb` gives back the first run's state. */
  lemma ClearChatRestarts(kb: Data, st: AppState)
    requires Inv(Render(kb), st)
    ensures ClearChat(st) == Start(kb)
  {
    ClearRestoresInit(kb, st.bot);
  }

  /** Every run keeps the invariant. */
  lemma RunInv(instruction: string, st: AppState, x: Interaction)
    requires Inv(instruction, st)
    ensures Inv(instruction, Run(st, x))
  {
    GreetInv(instruction, st);
    SubmitInv(instruction, Greet(st), x.sendPressed, x.input, x.today, x.generate);
  }

  /** Any sequence of runs from the first state keeps the invariant. */
  lemma {:induction false} RunAllInv(instruction: string, st: AppState, xs: seq<Interaction>)
    requires Inv(instruction, st)
    ensures Inv(instruction, RunAll(st, xs))
    decreases |xs|
  {
    if |xs| > 0 {
      RunInv(instruction, st, xs[0]);
      RunAllInv(instruction, Run(st, xs[0]), xs[1..]);
    }
  }

  /** A message posted when the page awaits the name becomes the student's name,
      stripped, and is not sent to the model: the bot's history stays empty. */
  lemma FirstMessageNamesStudent(instruction: string, st: AppState, x: Interaction)
    requires Inv(instruction, st) && st.awaitingName
    requires Accepts(x.sendPressed, x.input)
    ensures Run(st, x).bot.userName == Some(Strip(x.input))
    ensures Run(st, x).bot.history == []
    ensures HasName(Run(st, x).bot)
  {
    AcceptsIffNotBlank(x.sendPressed, x.input);
    NameKnownIffNotBlank(Greet(st).bot, x.input);
  }

  /** After the name is known, every accepted message reaches the model with a
      prompt that names the student. */
  lemma LaterMessagesNameTheStudent(instruction: string, st: AppState, x: Interaction)
    requires Inv(instruction, st) && !st.awaitingName
    ensures HasName(Greet(st).bot)
    ensures ContainsAt(Prompt(Greet(st).bot, x.input, x.today),
                       NameLabel + st.bot.userName.value + "\n", |instruction|)
  {
    PromptNameShown(Greet(st).bot, x.input, x.today);
  }

  /** Once the greeting is shown, a run with a blank message and no Clear Chat click
      changes nothing: no entry, no count, no turn. */
  lemma BlankInputChangesNothing(st: AppState, x: Interaction)
    requires st.conversationStarted && !x.clearPressed
    requires Strip(x.input) == []
    ensures Run(st, x) == st
  {
  }

  /** A run whose message is accepted ignores a Clear Chat click in that run. */
  lemma AcceptedMessageWinsOverClear(st: AppState, x: Interaction)
    requires Accepts(x.sendPressed, x.input)
    ensures Run(st, x) == Run(st, x.(clearPressed := false))
    ensures Run(st, x).messageCount == Greet(st).messageCount + 1
  {
  }
}

=== FILE: context_builder.dfy ===
/**
 The system instruction EduBot sends with every request
 (`EduBot._create_system_instruction`, chatbot_logic.py:32-122): a fixed
 persona preamble, then the college data section by section, then fixed
 response guidelines. Each section renderer mirrors one `for` loop of the
 source; `Render` appends them in the source's order.

 The lemmas locate every piece of the data in the rendered block: the
 sections are the nine of `AllKinds` in that order, the two optional ones
 are empty exactly when their key is absent, and inside each section the
 entries keep the order of the data.
 */
module ContextBuilder {
  import opened Optional
  import opened Text
  import opened KnowledgeBase

  /* ---------------- Fixed text ---------------- */

  /** The opening words of the instruction; the persona text follows them. */
  const PreambleHeader: string := "You are EduBot"

  /** The opening of the closing guidelines; the guideline lines follow it. */
  const GuidelinesHeader: string := "\n\nRESPONSE GUIDELINES:\n"

  /** The two fixed texts that frame the college data: what follows the opening
      words (persona, rules, and the lead-in to the data), and the guideline
      lines after the guidelines header. The layout lemmas hold for every
      template; `EduBotTemplate` is the one the chatbot uses. */
  datatype Template = Template(persona: string, guidelines: string)

  const EduBotTemplate: Template := Template(
    ", a friendly and helpful college assistant chatbot for Canara Engineering College. \n"
    + "Your personality is warm, supportive, and enthusiastic about helping students.\n"
    + "\n"
    + "IMPORTANT RULES:\n"
    + "1. Always use the student's name when you know it\n"
    + "2. Use emojis appropriately to make conversations engaging\n"
    + "3. Be concise but informative\n"
    + "4. If asked about information not in the college data, politely say you don't have that information\n"
    + "5. Always prioritize college-specific data over general knowledge\n"
    + "6. Format responses with proper markdown for readability\n"
    + "7. When asked about faculty, you can filter by department (CSE, ISE, CSBS, CSD)\n"
    + "8. When asked about course timings, mention both the time and the faculty member\n"
    + "\n"
    + "COLLEGE DATA AVAILABLE:\n",
    "- For schedules: Show the relevant day's schedule clearly with faculty names and timings\n"
    + "- For faculty: Display contact information in a formatted way. If asked about a specific department, show only that department's faculty\n"
    + "- For exams: Present dates and timings clearly\n"
    + "- For events: Highlight exciting details\n"
    + "- For motivation: Share a quote with encouraging words\n"
    + "- For greetings: Be warm and friendly\n"
    + "- For course queries: Mention faculty name, timing, and day when relevant\n"
    + "- Always end responses by asking if they need anything else\n")

  const CollegeHeader: string := "\n\nCOLLEGE: "
  const SchedulesHeader: string := "\n\n--- CLASS SCHEDULES ---\n"
  const CoursesHeader: string := "\n\n--- COURSE DETAILS ---\n"
  const FacultyHeader: string := "\n\n--- FACULTY DIRECTORY ---\n"
  const ExamsHeader: string := "\n\n--- EXAM TIMETABLE ---\n"
  const EventsHeader: string := "\n\n--- UPCOMING EVENTS ---\n"
  const QuotesHeader: string := "\n\n--- MOTIVATIONAL QUOTES ---\n"
  const QuotesIntro: string := "You have access to these motivational quotes. Share one when asked:\n"

  /** Defaults of the `college_info` fields. */
  const DefaultCollegeName: string := "Canara Engineering College"
  const DefaultDepartment: string := "Computer Science & Engineering"
  const DefaultYear: string := "3rd Year"
  const DefaultSemester: string := "5th Semester"

  /** Defaults of the grouped faculty fields. */
  const DefaultDesignation: string := "Faculty"
  const NotAvailable: string := "N/A"

  /* ---------------- Section renderers ---------------- */

  function CollegeSection(info: Option<CollegeInfo>): string {
    match info
    case None => ""
    case Some(c) => CollegeNameLine(c) + DepartmentLine(c) + TermLine(c)
  }

  /** The three `college_info` lines, each missing field replaced by its default. */
  function CollegeNameLine(c: CollegeInfo): string {
    CollegeHeader + c.name.GetOr(DefaultCollegeName) + "\n"
  }

  function DepartmentLine(c: CollegeInfo): string {
    "DEPARTMENT: " + c.department.GetOr(DefaultDepartment) + "\n"
  }

  function TermLine(c: CollegeInfo): string {
    "YEAR: " + c.year.GetOr(DefaultYear) + ", SEMESTER: " + c.semester.GetOr(DefaultSemester) + "\n"
  }

  function DayBlock(day: string, schedule: string): string {
    "\n" + Capitalize(day) + ":\n" + schedule + "\n"
  }

  function DayBlocks(days: seq<(string, string)>): seq<string> {
    seq(|days|, i requires 0 <= i < |days| => DayBlock(days[i].0, days[i].1))
  }

  function ScheduleSection(days: seq<(string, string)>): string {
    SchedulesHeader + Concat(DayBlocks(days))
  }

  function CourseBlock(code: string, c: Course): string {
    "\n" + code + ": " + c.name + "\n"
    + "Faculty: " + c.faculty + "\n"
    + "Credits: " + c.credits + ", Type: " + c.courseType + "\n"
  }

  function CourseBlocks(courses: seq<(string, Course)>): seq<string> {
    seq(|courses|, i requires 0 <= i < |courses| => CourseBlock(courses[i].0, courses[i].1))
  }

  function CourseSection(courses: Option<seq<(string, Course)>>): string {
    match courses
    case None => ""
    case Some(cs) => CoursesHeader + Concat(CourseBlocks(cs))
  }

  function ContactLine(email: string, phone: string): string {
    "Email: " + email + ", Phone: " + phone + "\n"
  }

  /** The first line of a grouped member: name and designation. */
  function MemberHeadline(m: Member): string {
    "\n" + m.name + " - " + m.designation.GetOr(DefaultDesignation) + "\n"
  }

  function SubjectLine(subject: string): string {
    "Subject: " + subject + "\n"
  }

  function MemberBlock(m: Member): string {
    MemberHeadline(m) + SubjectLine(m.subject) + ContactLine(m.email.GetOr(NotAvailable), m.phone.GetOr(NotAvailable))
  }

  function MemberBlocks(ms: seq<Member>): seq<string> {
    seq(|ms|, i requires 0 <= i < |ms| => MemberBlock(ms[i]))
  }

  function DeptHeading(code: string): string {
    "\n\n" + Upper(code) + " Department:\n"
  }

  function DeptBlock(d: Department): string {
    DeptHeading(d.code) + Concat(MemberBlocks(d.members))
  }

  function DeptBlocks(ds: seq<Department>): seq<string> {
    seq(|ds|, i requires 0 <= i < |ds| => DeptBlock(ds[i]))
  }

  /** The first line of a flat entry: name and department. */
  function FlatHeadline(e: FlatEntry): string {
    "\n" + e.name + " - " + e.department + "\n"
  }

  function FlatBlock(e: FlatEntry): string {
    FlatHeadline(e) + SubjectLine(e.subject) + ContactLine(e.email, e.phone)
  }

  function FlatBlocks(es: seq<FlatEntry>): seq<string> {
    seq(|es|, i requires 0 <= i < |es| => FlatBlock(es[i]))
  }

  function FacultyListing(f: Faculty): string {
    match f
    case Grouped(ds) => Concat(DeptBlocks(ds))
    case Flat(es) => Concat(FlatBlocks(es))
  }

  function FacultySection(f: Faculty): string {
    FacultyHeader + FacultyListing(f)
  }

  /** The label of an exam category: `key.replace('_', ' ').title()`.
      Every underscore becomes a space, other non-letters stay, every letter
      keeps its identity, and a letter is upper-case exactly when it opens a
      word (the key's previous character is not a letter). */
  function ExamLabel(key: string): (r: string)
    ensures |r| == |key|
    ensures forall i :: 0 <= i < |key| ==> r[i] != '_'
    ensures forall i :: 0 <= i < |key| && key[i] == '_' ==> r[i] == ' '
    ensures forall i :: 0 <= i < |key| && !IsLetter(key[i]) && key[i] != '_' ==> r[i] == key[i]
    ensures forall i :: 0 <= i < |key| ==> LowerChar(r[i]) == LowerChar(key[i]) || key[i] == '_'
    ensures forall i :: 0 <= i < |key| && IsLetter(key[i]) ==>
      (IsUpper(r[i]) <==> i == 0 || !IsLetter(key[i - 1]))
  {
    var spaced := ReplaceChar(key, '_', ' ');
    assert forall i :: 0 <= i < |key| ==> (IsLetter(spaced[i]) <==> IsLetter(key[i]));
    Title(spaced)
  }

  function ExamLine(exam: string): string {
    "  - " + exam + "\n"
  }

  function ExamLines(exams: seq<string>): seq<string> {
    seq(|exams|, i requires 0 <= i < |exams| => ExamLine(exams[i]))
  }

  function NoteLine(note: Option<string>): string {
    match note
    case None => ""
    case Some(n) => "Note: " + n + "\n"
  }

  /** The line naming an exam category and its date. */
  function ExamHeading(key: string, c: ExamCategory): string {
    "\n" + ExamLabel(key) + ": " + c.date + "\n"
  }

  function ExamBlock(key: string, c: ExamCategory): string {
    ExamHeading(key, c) + Concat(ExamLines(c.exams)) + NoteLine(c.note)
  }

  function ExamBlocks(cats: seq<(string, ExamCategory)>): seq<string> {
    seq(|cats|, i requires 0 <= i < |cats| => ExamBlock(cats[i].0, cats[i].1))
  }

  function ExamSection(cats: seq<(string, ExamCategory)>): string {
    ExamsHeader + Concat(ExamBlocks(cats))
  }

  function EventBlock(e: Event): string {
    "\n" + e.name + " - " + e.date + "\n" + "Description: " + e.description + "\n"
  }

  function EventBlocks(es: seq<Event>): seq<string> {
    seq(|es|, i requires 0 <= i < |es| => EventBlock(es[i]))
  }

  function EventSection(es: seq<Event>): string {
    EventsHeader + Concat(EventBlocks(es))
  }

  /** The line for quote number `n` (counted from 1). */
  function QuoteLine(n: nat, quote: string): string {
    NatToString(n) + ". " + quote + "\n"
  }

  function QuoteLines(quotes: seq<string>): seq<string> {
    seq(|quotes|, i requires 0 <= i < |quotes| => QuoteLine(i + 1, quotes[i]))
  }

  function QuoteSection(quotes: seq<string>): string {
    QuotesHeader + QuotesIntro + Concat(QuoteLines(quotes))
  }

  /* ---------------- The section structure ---------------- */

  datatype SectionKind =
    | Preamble | College | Schedules | Courses | FacultyDirectory | Exams | Events | Quotes | Guidelines

  /** The fixed order of the sections. */
  const AllKinds: seq<SectionKind> :=
    [Preamble, College, Schedules, Courses, FacultyDirectory, Exams, Events, Quotes, Guidelines]

  function Rank(k: SectionKind): (r: nat)
    ensures r < |AllKinds| && AllKinds[r] == k
  {
    match k
    case Preamble => 0
    case College => 1
    case Schedules => 2
    case Courses => 3
    case FacultyDirectory => 4
    case Exams => 5
    case Events => 6
    case Quotes => 7
    case Guidelines => 8
  }

  /** The text each section opens with. */
  function Header(k: SectionKind): string {
    match k
    case Preamble => PreambleHeader
    case College => CollegeHeader
    case Schedules => SchedulesHeader
    case Courses => CoursesHeader
    case FacultyDirectory => FacultyHeader
    case Exams => ExamsHeader
    case Events => EventsHeader
    case Quotes => QuotesHeader
    case Guidelines => GuidelinesHeader
  }

  /** Whether the data calls for the section: only `college_info` and
      `course_details` are optional. */
  predicate Present(kb: Data, k: SectionKind) {
    match k
    case College => kb.college.Some?
    case Courses => kb.courses.Some?
    case _ => true
  }

  /** The text of section `k`: a fixed text of the template, or the rendering of one part of the data. */
  function SectionText(t: Template, kb: Data, k: SectionKind): string {
    match k
    case Preamble => PreambleHeader + t.persona
    case College => CollegeSection(kb.college)
    case Schedules => ScheduleSection(kb.schedules)
    case Courses => CourseSection(kb.courses)
    case FacultyDirectory => FacultySection(kb.faculty)
    case Exams => ExamSection(kb.exams)
    case Events => EventSection(kb.events)
    case Quotes => QuoteSection(kb.quotes)
    case Guidelines => GuidelinesHeader + t.guidelines
  }

  /** The nine section texts in the fixed order. */
  function SectionTexts(t: Template, kb: Data): (ts: seq<string>)
    ensures |ts| == |AllKinds|
    ensures forall k :: ts[Rank(k)] == SectionText(t, kb, k)
  {
    [ PreambleHeader + t.persona, CollegeSection(kb.college), ScheduleSection(kb.schedules),
      CourseSection(kb.courses), FacultySection(kb.faculty), ExamSection(kb.exams),
      EventSection(kb.events), QuoteSection(kb.quotes), GuidelinesHeader + t.guidelines ]
  }

  /** The instruction built from template `t` and the college data. */
  function Instruction(t: Template, kb: Data): string {
    Concat(SectionTexts(t, kb))
  }

  /** The system instruction EduBot sends for the given college data. */
  function Render(kb: Data): string {
    Instruction(EduBotTemplate, kb)
  }

  /** A section is present exactly when the data has its key; a present
      section opens with its header and an absent one contributes nothing. */
  lemma SectionPresence(t: Template, kb: Data, k: SectionKind)
    ensures Present(kb, k) ==> ContainsAt(SectionText(t, kb, k), Header(k), 0)
    ensures !Present(kb, k) <==> SectionText(t, kb, k) == ""
  {
    match k
    case Preamble => OpensWith(PreambleHeader, t.persona);
    case College =>
      if kb.college.Some? {
        var c := kb.college.value;
        ThreeParts(CollegeHeader, c.name.GetOr(DefaultCollegeName), "\n");
        ThreeParts(CollegeNameLine(c), DepartmentLine(c), TermLine(c));
        ContainsTrans(SectionText(t, kb, k), CollegeNameLine(c), CollegeHeader, 0, 0);
      }
    case Schedules => OpensWith(SchedulesHeader, Concat(DayBlocks(kb.schedules)));
    case Courses =>
      if kb.courses.Some? {
        OpensWith(CoursesHeader, Concat(CourseBlocks(kb.courses.value)));
      }
    case FacultyDirectory => OpensWith(FacultyHeader, FacultyListing(kb.faculty));
    case Exams => OpensWith(ExamsHeader, Concat(ExamBlocks(kb.exams)));
    case Events => OpensWith(EventsHeader, Concat(EventBlocks(kb.events)));
    case Quotes => OpensWith(QuotesHeader, QuotesIntro + Concat(QuoteLines(kb.quotes)));
    case Guidelines => OpensWith(GuidelinesHeader, t.guidelines);
  }

  /** Concatenating nine parts appends them left to right. */
  lemma ConcatNine(ts: seq<string>)
    requires |ts| == 9
    ensures Concat(ts) == ts[0] + ts[1] + ts[2] + ts[3] + ts[4] + ts[5] + ts[6] + ts[7] + ts[8]
  {
    assert ts[..0] == [];
    ConcatSnoc(ts, 0);
    ConcatSnoc(ts, 1);
    ConcatSnoc(ts, 2);
    ConcatSnoc(ts, 3);
    ConcatSnoc(ts, 4);
    ConcatSnoc(ts, 5);
    ConcatSnoc(ts, 6);
    ConcatSnoc(ts, 7);
    ConcatSnoc(ts, 8);
    assert ts[..9] == ts;
  }

  /** The instruction is what the source's sequence of appends produces:
      preamble, college, schedules, courses, faculty, exams, events, quotes, guidelines. */
  lemma InstructionAppendsSections(t: Template, kb: Data)
    ensures Instruction(t, kb) ==
      PreambleHeader + t.persona
      + CollegeSection(kb.college)
      + ScheduleSection(kb.schedules)
      + CourseSection(kb.courses)
      + FacultySection(kb.faculty)
      + ExamSection(kb.exams)
      + EventSection(kb.events)
      + QuoteSection(kb.quotes)
      + (GuidelinesHeader + t.guidelines)
  {
    ConcatNine(SectionTexts(t, kb));
  }

  /** Section `k` occurs in the instruction, and a present section's header occurs where it starts. */
  lemma SectionAt(t: Template, kb: Data, k: SectionKind) returns (p: nat)
    ensures ContainsAt(Instruction(t, kb), SectionText(t, kb, k), p)
    ensures Present(kb, k) ==> ContainsAt(Instruction(t, kb), Header(k), p)
  {
    var ts := SectionTexts(t, kb);
    p := Offset(ts, Rank(k));
    ConcatPartAt(ts, Rank(k));
    SectionPresence(t, kb, k);
    if Present(kb, k) {
      ContainsTrans(Instruction(t, kb), SectionText(t, kb, k), Header(k), p, 0);
    }
  }

  /** Sections follow the fixed order: an earlier section ends before a later one starts. */
  lemma SectionsInFixedOrder(t: Template, kb: Data, k1: SectionKind, k2: SectionKind) returns (p1: nat, p2: nat)
    requires Rank(k1) < Rank(k2)
    ensures ContainsAt(Instruction(t, kb), SectionText(t, kb, k1), p1)
    ensures ContainsAt(Instruction(t, kb), SectionText(t, kb, k2), p2)
    ensures p1 + |SectionText(t, kb, k1)| <= p2
  {
    var ts := SectionTexts(t, kb);
    ConcatOrder(ts, Rank(k1), Rank(k2));
    ConcatPartAt(ts, Rank(k1));
    ConcatPartAt(ts, Rank(k2));
    p1, p2 := Offset(ts, Rank(k1)), Offset(ts, Rank(k2));
  }

  /** The headers of present sections occur in the fixed order. */
  lemma HeadersInFixedOrder(t: Template, kb: Data, k1: SectionKind, k2: SectionKind)
    requires Rank(k1) < Rank(k2)
    requires Present(kb, k1) && Present(kb, k2)
    ensures Precedes(Instruction(t, kb), Header(k1), Header(k2))
  {
    var p1, p2 := SectionsInFixedOrder(t, kb, k1, k2);
    SectionPresence(t, kb, k1);
    SectionPresence(t, kb, k2);
    ContainsTrans(Instruction(t, kb), SectionText(t, kb, k1), Header(k1), p1, 0);
    ContainsTrans(Instruction(t, kb), SectionText(t, kb, k2), Header(k2), p2, 0);
    assert p1 + |Header(k1)| <= p2;
  }
}

=== FILE: context_layout.dfy ===
/**
 Where each item of the college data shows up in the system instruction.
 Every lemma here locates rendered entries in the whole instruction
 `Instruction(t, kb)`, for every template `t` and so in particular in
 `Render(kb)`: under their section's header, in the order of the data, with the
 documented defaults filled in.
 */
module ContextLayout {
  import opened Optional
  import opened Text
  import opened KnowledgeBase
  import opened ContextBuilder

  /* ---------------- Sections that are a heading and a list ---------------- */

  /** In a section made of a heading `h` and a list of parts, each part occurs
      in the instruction after `h`. */
  lemma HeadedSectionPart(t: Template, kb: Data, k: SectionKind, h: string, parts: seq<string>, i: int) returns (q: int)
    requires SectionText(t, kb, k) == h + Concat(parts)
    requires 0 <= i < |parts|
    ensures ContainsAt(Instruction(t, kb), parts[i], q)
    ensures Precedes(Instruction(t, kb), h, parts[i])
  {
    var p := SectionAt(t, kb, k);
    q := HeadedListIn(Instruction(t, kb), p, h, parts, i);
  }

  /** In a section made of a heading and a list of parts, the parts keep their order. */
  lemma HeadedSectionOrder(t: Template, kb: Data, k: SectionKind, h: string, parts: seq<string>, i: int, j: int)
    requires SectionText(t, kb, k) == h + Concat(parts)
    requires 0 <= i < j < |parts|
    ensures Precedes(Instruction(t, kb), parts[i], parts[j])
  {
    var p := SectionAt(t, kb, k);
    HeadedOrderIn(Instruction(t, kb), p, h, parts, i, j);
  }

  /* ---------------- College info ---------------- */

  /** With `college_info` present, the college section is its three lines, one
      after the other, each missing field replaced by its default. */
  lemma CollegeInfoShown(t: Template, kb: Data) returns (p: int)
    requires kb.college.Some?
    ensures var c := kb.college.value;
      ContainsAt(Instruction(t, kb), CollegeHeader + c.name.GetOr(DefaultCollegeName) + "\n", p)
    ensures var c := kb.college.value;
      ContainsAt(Instruction(t, kb), "DEPARTMENT: " + c.department.GetOr(DefaultDepartment) + "\n",
                 p + |CollegeNameLine(c)|)
    ensures var c := kb.college.value;
      ContainsAt(Instruction(t, kb), "YEAR: " + c.year.GetOr(DefaultYear) + ", SEMESTER: " + c.semester.GetOr(DefaultSemester) + "\n",
                 p + |CollegeNameLine(c)| + |DepartmentLine(c)|)
  {
    var c := kb.college.value;
    p := SectionAt(t, kb, College);
    ThreeIn(Instruction(t, kb), CollegeNameLine(c), DepartmentLine(c), TermLine(c), p);
  }

  /* ---------------- Class schedules ---------------- */

  /** Every day is listed under the schedules header. */
  lemma ScheduleListed(t: Template, kb: Data, i: int)
    requires 0 <= i < |kb.schedules|
    ensures Precedes(Instruction(t, kb), SchedulesHeader, DayBlock(kb.schedules[i].0, kb.schedules[i].1))
  {
    var _ := HeadedSectionPart(t, kb, Schedules, SchedulesHeader, DayBlocks(kb.schedules), i);
  }

  /** Days are listed in the order the data gives them. */
  lemma SchedulesInInputOrder(t: Template, kb: Data, i: int, j: int)
    requires 0 <= i < j < |kb.schedules|
    ensures Precedes(Instruction(t, kb), DayBlock(kb.schedules[i].0, kb.schedules[i].1),
                                 DayBlock(kb.schedules[j].0, kb.schedules[j].1))
  {
    HeadedSectionOrder(t, kb, Schedules, SchedulesHeader, DayBlocks(kb.schedules), i, j);
  }

  /** A day's entry is its name capitalised, a colon, and its schedule text:
      the first letter upper-case and every later letter lower-case. */
  lemma DayBlockShape(day: string, schedule: string)
    ensures ContainsAt(DayBlock(day, schedule), ":\n" + schedule + "\n", 1 + |day|)
    ensures |day| > 0 ==> DayBlock(day, schedule)[1] == UpperChar(day[0])
    ensures forall i :: 1 < i <= |day| ==> DayBlock(day, schedule)[i] == LowerChar(day[i - 1])
  {
    ThreeParts("\n", Capitalize(day), ":\n" + schedule + "\n");
    assert DayBlock(day, schedule) == "\n" + Capitalize(day) + (":\n" + schedule + "\n");
  }

  /* ---------------- Course details ---------------- */

  lemma CourseListed(t: Template, kb: Data, i: int)
    requires kb.courses.Some? && 0 <= i < |kb.courses.value|
    ensures Precedes(Instruction(t, kb), CoursesHeader, CourseBlock(kb.courses.value[i].0, kb.courses.value[i].1))
  {
    var _ := HeadedSectionPart(t, kb, Courses, CoursesHeader, CourseBlocks(kb.courses.value), i);
  }

  lemma CoursesInInputOrder(t: Template, kb: Data, i: int, j: int)
    requires kb.courses.Some? && 0 <= i < j < |kb.courses.value|
    ensures Precedes(Instruction(t, kb), CourseBlock(kb.courses.value[i].0, kb.courses.value[i].1),
                                 CourseBlock(kb.courses.value[j].0, kb.courses.value[j].1))
  {
    HeadedSectionOrder(t, kb, Courses, CoursesHeader, CourseBlocks(kb.courses.value), i, j);
  }

  /* ---------------- Faculty directory, grouped shape ---------------- */

  /** Departments are listed in data order, each under its heading. */
  lemma DepartmentsInInputOrder(t: Template, kb: Data, i: int, j: int)
    requires kb.faculty.Grouped? && 0 <= i < j < |kb.faculty.departments|
    ensures Precedes(Instruction(t, kb), DeptHeading(kb.faculty.departments[i].code),
                                 DeptHeading(kb.faculty.departments[j].code))
  {
    var ds := kb.faculty.departments;
    var parts := DeptBlocks(ds);
    HeadedSectionOrder(t, kb, FacultyDirectory, FacultyHeader, parts, i, j);
    OpensWith(DeptHeading(ds[i].code), Concat(MemberBlocks(ds[i].members)));
    OpensWith(DeptHeading(ds[j].code), Concat(MemberBlocks(ds[j].members)));
    PrecedesPrefixes(Instruction(t, kb), parts[i], parts[j], DeptHeading(ds[i].code), DeptHeading(ds[j].code));
  }

  /** Every department's heading is rendered under the faculty header, whether
      or not the department has members. */
  lemma DeptHeadingListed(t: Template, kb: Data, d: int)
    requires kb.faculty.Grouped? && 0 <= d < |kb.faculty.departments|
    ensures Precedes(Instruction(t, kb), FacultyHeader, DeptHeading(kb.faculty.departments[d].code))
  {
    var dept := kb.faculty.departments[d];
    var q := HeadedSectionPart(t, kb, FacultyDirectory, FacultyHeader, DeptBlocks(kb.faculty.departments), d);
    OpensWith(DeptHeading(dept.code), Concat(MemberBlocks(dept.members)));
    assert FacultyHeader[0..|FacultyHeader|] == FacultyHeader;
    PrecedesPrefixes(Instruction(t, kb), FacultyHeader, DeptBlock(dept), FacultyHeader, DeptHeading(dept.code));
  }

  /** A department heading shows the department code upper-cased: no lower-case letter remains. */
  lemma DeptHeadingUpperCase(code: string)
    ensures ContainsAt(DeptHeading(code), Upper(code), 2)
    ensures forall i :: 2 <= i < 2 + |code| ==> !IsLower(DeptHeading(code)[i])
  {
    ThreeParts("\n\n", Upper(code), " Department:\n");
  }

  /** Where member `k` of department `d` sits in the instruction; it follows its department heading. */
  lemma MemberAt(t: Template, kb: Data, d: int, k: int) returns (p: int)
    requires kb.faculty.Grouped? && 0 <= d < |kb.faculty.departments|
    requires 0 <= k < |kb.faculty.departments[d].members|
    ensures ContainsAt(Instruction(t, kb), MemberBlock(kb.faculty.departments[d].members[k]), p)
    ensures Precedes(Instruction(t, kb), DeptHeading(kb.faculty.departments[d].code),
                                 MemberBlock(kb.faculty.departments[d].members[k]))
  {
    var dept := kb.faculty.departments[d];
    var q := HeadedSectionPart(t, kb, FacultyDirectory, FacultyHeader, DeptBlocks(kb.faculty.departments), d);
    p := HeadedListIn(Instruction(t, kb), q, DeptHeading(dept.code), MemberBlocks(dept.members), k);
  }

  /** Every member of a department is listed under that department's heading,
      with designation "Faculty" and email and phone "N/A" where missing. */
  lemma GroupedMemberListed(t: Template, kb: Data, d: int, k: int) returns (p: int)
    requires kb.faculty.Grouped? && 0 <= d < |kb.faculty.departments|
    requires 0 <= k < |kb.faculty.departments[d].members|
    ensures Precedes(Instruction(t, kb), DeptHeading(kb.faculty.departments[d].code),
                                 MemberBlock(kb.faculty.departments[d].members[k]))
    ensures var m := kb.faculty.departments[d].members[k];
      ContainsAt(Instruction(t, kb), "\n" + m.name + " - " + m.designation.GetOr(DefaultDesignation) + "\n", p)
    ensures var m := kb.faculty.departments[d].members[k];
      ContainsAt(Instruction(t, kb), "Subject: " + m.subject + "\n", p + |MemberHeadline(m)|)
    ensures var m := kb.faculty.departments[d].members[k];
      ContainsAt(Instruction(t, kb), "Email: " + m.email.GetOr(NotAvailable) + ", Phone: " + m.phone.GetOr(NotAvailable) + "\n",
                 p + |MemberHeadline(m)| + |SubjectLine(m.subject)|)
  {
    var m := kb.faculty.departments[d].members[k];
    p := MemberAt(t, kb, d, k);
    ThreeIn(Instruction(t, kb), MemberHeadline(m), SubjectLine(m.subject),
            ContactLine(m.email.GetOr(NotAvailable), m.phone.GetOr(NotAvailable)), p);
  }

  /** Members are listed in data order within their department. */
  lemma GroupedMembersInInputOrder(t: Template, kb: Data, d: int, i: int, j: int)
    requires kb.faculty.Grouped? && 0 <= d < |kb.faculty.departments|
    requires 0 <= i < j < |kb.faculty.departments[d].members|
    ensures Precedes(Instruction(t, kb), MemberBlock(kb.faculty.departments[d].members[i]),
                                 MemberBlock(kb.faculty.departments[d].members[j]))
  {
    var dept := kb.faculty.departments[d];
    var q := HeadedSectionPart(t, kb, FacultyDirectory, FacultyHeader, DeptBlocks(kb.faculty.departments), d);
    HeadedOrderIn(Instruction(t, kb), q, DeptHeading(dept.code), MemberBlocks(dept.members), i, j);
  }

  /* ---------------- Faculty directory, flat shape ---------------- */

  /** Every flat entry is listed, fields as given, under the faculty header. */
  lemma FlatEntryListed(t: Template, kb: Data, i: int)
    requires kb.faculty.Flat? && 0 <= i < |kb.faculty.entries|
    ensures Precedes(Instruction(t, kb), FacultyHeader, FlatBlock(kb.faculty.entries[i]))
  {
    var _ := HeadedSectionPart(t, kb, FacultyDirectory, FacultyHeader, FlatBlocks(kb.faculty.entries), i);
  }

  /** A flat entry's block carries its name, department, subject and contact
      fields verbatim, with no defaults substituted, one line after another. */
  lemma FlatEntryFields(e: FlatEntry)
    ensures ContainsAt(FlatBlock(e), e.name, 1)
    ensures ContainsAt(FlatBlock(e), e.department, |"\n" + e.name + " - "|)
    ensures ContainsAt(FlatBlock(e), SubjectLine(e.subject), |FlatHeadline(e)|)
    ensures ContainsAt(FlatBlock(e), ContactLine(e.email, e.phone), |FlatHeadline(e)| + |SubjectLine(e.subject)|)
    ensures |FlatBlock(e)| == |FlatHeadline(e)| + |SubjectLine(e.subject)| + |ContactLine(e.email, e.phone)|
  {
    ThreeParts(FlatHeadline(e), SubjectLine(e.subject), ContactLine(e.email, e.phone));
    FlatHeadlineFields(e);
    ContainsTrans(FlatBlock(e), FlatHeadline(e), e.name, 0, 1);
    ContainsTrans(FlatBlock(e), FlatHeadline(e), e.department, 0, |"\n" + e.name + " - "|);
  }

  /** Where the name and the department sit in a flat entry's first line. */
  lemma FlatHeadlineFields(e: FlatEntry)
    ensures ContainsAt(FlatHeadline(e), e.name, 1)
    ensures ContainsAt(FlatHeadline(e), e.department, |"\n" + e.name + " - "|)
  {
    ContainsMiddle("\n" + e.name + " - ", e.department, "\n");
    ContainsMiddle("\n", e.name, " - " + e.department + "\n");
    assert "\n" + e.name + " - " + e.department + "\n" == "\n" + e.name + (" - " + e.department + "\n");
  }

  lemma FlatEntriesInInputOrder(t: Template, kb: Data, i: int, j: int)
    requires kb.faculty.Flat? && 0 <= i < j < |kb.faculty.entries|
    ensures Precedes(Instruction(t, kb), FlatBlock(kb.faculty.entries[i]), FlatBlock(kb.faculty.entries[j]))
  {
    HeadedSectionOrder(t, kb, FacultyDirectory, FacultyHeader, FlatBlocks(kb.faculty.entries), i, j);
  }

  /* ---------------- Exam timetable ---------------- */

  /** A category's block opens with its heading. */
  lemma ExamBlockOpensWithHeading(key: string, c: ExamCategory)
    ensures ContainsAt(ExamBlock(key, c), ExamHeading(key, c), 0)
  {
    ThreeParts(ExamHeading(key, c), Concat(ExamLines(c.exams)), NoteLine(c.note));
  }

  lemma ExamCategoriesInInputOrder(t: Template, kb: Data, i: int, j: int)
    requires 0 <= i < j < |kb.exams|
    ensures Precedes(Instruction(t, kb), ExamHeading(kb.exams[i].0, kb.exams[i].1),
                                 ExamHeading(kb.exams[j].0, kb.exams[j].1))
  {
    var cats := kb.exams;
    var parts := ExamBlocks(cats);
    HeadedSectionOrder(t, kb, Exams, ExamsHeader, parts, i, j);
    ExamBlockOpensWithHeading(cats[i].0, cats[i].1);
    ExamBlockOpensWithHeading(cats[j].0, cats[j].1);
    PrecedesPrefixes(Instruction(t, kb), parts[i], parts[j], ExamHeading(cats[i].0, cats[i].1), ExamHeading(cats[j].0, cats[j].1));
  }

  /** Where category `n`'s block sits in the rendered block. */
  lemma ExamBlockAt(t: Template, kb: Data, n: int) returns (p: int)
    requires 0 <= n < |kb.exams|
    ensures ContainsAt(Instruction(t, kb), ExamBlock(kb.exams[n].0, kb.exams[n].1), p)
  {
    p := HeadedSectionPart(t, kb, Exams, ExamsHeader, ExamBlocks(kb.exams), n);
  }

  /** Every exam line of a category is rendered after the category's heading. */
  lemma ExamLineListed(t: Template, kb: Data, n: int, i: int)
    requires 0 <= n < |kb.exams|
    requires 0 <= i < |kb.exams[n].1.exams|
    ensures Precedes(Instruction(t, kb), ExamHeading(kb.exams[n].0, kb.exams[n].1), ExamLine(kb.exams[n].1.exams[i]))
  {
    var key, c := kb.exams[n].0, kb.exams[n].1;
    var h := ExamHeading(key, c);
    var lines := ExamLines(c.exams);
    var p := ExamBlockAt(t, kb, n);
    var _ := HeadedListIn(Instruction(t, kb), p, h, lines, i) by {
      ExamBodyAt(t, kb, n, p);
    }
  }

  /** The heading and exam lines of category `n` occur where its block does. */
  lemma ExamBodyAt(t: Template, kb: Data, n: int, p: int)
    requires 0 <= n < |kb.exams|
    requires ContainsAt(Instruction(t, kb), ExamBlock(kb.exams[n].0, kb.exams[n].1), p)
    ensures ContainsAt(Instruction(t, kb), ExamHeading(kb.exams[n].0, kb.exams[n].1) + Concat(ExamLines(kb.exams[n].1.exams)), p)
  {
    var key, c := kb.exams[n].0, kb.exams[n].1;
    var body := ExamHeading(key, c) + Concat(ExamLines(c.exams));
    OpensWith(body, NoteLine(c.note));
    ContainsTrans(Instruction(t, kb), ExamBlock(key, c), body, p, 0);
  }

  /** The exam lines of a category keep the data's order. */
  lemma ExamEntriesInInputOrder(t: Template, kb: Data, n: int, i: int, j: int)
    requires 0 <= n < |kb.exams|
    requires 0 <= i < j < |kb.exams[n].1.exams|
    ensures Precedes(Instruction(t, kb), ExamLine(kb.exams[n].1.exams[i]), ExamLine(kb.exams[n].1.exams[j]))
  {
    var key, c := kb.exams[n].0, kb.exams[n].1;
    var p := ExamBlockAt(t, kb, n);
    ExamBodyAt(t, kb, n, p);
    HeadedOrderIn(Instruction(t, kb), p, ExamHeading(key, c), ExamLines(c.exams), i, j);
  }

  /** A note adds exactly one trailing `Note:` line to its category, and
      a category without a note has none. */
  lemma ExamNoteOnlyWhenPresent(key: string, c: ExamCategory)
    ensures c.note.None? ==> ExamBlock(key, c) == ExamHeading(key, c) + Concat(ExamLines(c.exams))
    ensures c.note.Some? ==> ExamBlock(key, c) == ExamBlock(key, c.(note := None)) + "Note: " + c.note.value + "\n"
  {
  }

  /** A category's note is shown after its heading. */
  lemma ExamNoteShown(t: Template, kb: Data, n: int)
    requires 0 <= n < |kb.exams| && kb.exams[n].1.note.Some?
    ensures Precedes(Instruction(t, kb), ExamHeading(kb.exams[n].0, kb.exams[n].1), "Note: " + kb.exams[n].1.note.value + "\n")
  {
    var key, c := kb.exams[n].0, kb.exams[n].1;
    var h := ExamHeading(key, c);
    var note := "Note: " + c.note.value + "\n";
    var p := ExamBlockAt(t, kb, n);
    ThreeIn(Instruction(t, kb), h, Concat(ExamLines(c.exams)), note, p);
  }

  /* ---------------- Events ---------------- */

  /** Each event sits inside the events section: after its header, before the quotes header. */
  lemma EventUnderHeading(t: Template, kb: Data, i: int)
    requires 0 <= i < |kb.events|
    ensures Precedes(Instruction(t, kb), EventsHeader, EventBlock(kb.events[i]))
    ensures Precedes(Instruction(t, kb), EventBlock(kb.events[i]), QuotesHeader)
  {
    var parts := EventBlocks(kb.events);
    var p, q := SectionsInFixedOrder(t, kb, Events, Quotes);
    var r := HeadedListIn(Instruction(t, kb), p, EventsHeader, parts, i);
    SectionPresence(t, kb, Quotes);
    ContainsTrans(Instruction(t, kb), SectionText(t, kb, Quotes), QuotesHeader, q, 0);
    assert r + |parts[i]| <= q && ContainsAt(Instruction(t, kb), parts[i], r) && ContainsAt(Instruction(t, kb), QuotesHeader, q);
  }

  lemma EventsInInputOrder(t: Template, kb: Data, i: int, j: int)
    requires 0 <= i < j < |kb.events|
    ensures Precedes(Instruction(t, kb), EventBlock(kb.events[i]), EventBlock(kb.events[j]))
  {
    HeadedSectionOrder(t, kb, Events, EventsHeader, EventBlocks(kb.events), i, j);
  }

  /* ---------------- Motivational quotes ---------------- */

  /** The `i`-th quote (from 0) is listed after the introduction line, as line number `i + 1`. */
  lemma QuoteListed(t: Template, kb: Data, i: int)
    requires 0 <= i < |kb.quotes|
    ensures Precedes(Instruction(t, kb), QuotesHeader + QuotesIntro, QuoteLine(i + 1, kb.quotes[i]))
  {
    var lines := QuoteLines(kb.quotes);
    assert lines[i] == QuoteLine(i + 1, kb.quotes[i]);
    var _ := HeadedSectionPart(t, kb, Quotes, QuotesHeader + QuotesIntro, lines, i);
  }

  /** A quote line opens with the decimal numeral of its number, which reads back
      as that number, then `". "` and the quote. */
  lemma QuoteLineNumbered(n: nat, quote: string)
    ensures ContainsAt(QuoteLine(n, quote), NatToString(n), 0)
    ensures DigitsValue(NatToString(n)) == n
    ensures ContainsAt(QuoteLine(n, quote), ". " + quote, |NatToString(n)|)
  {
    ThreeParts(NatToString(n), ". " + quote, "\n");
    assert QuoteLine(n, quote) == NatToString(n) + (". " + quote) + "\n";
    NatToStringRoundTrip(n);
  }

  /** One line per quote: adding a quote to the end of the list adds exactly
      one line to the section, numbered with the new count. */
  lemma QuoteSectionGrows(quotes: seq<string>, quote: string)
    ensures QuoteSection(quotes + [quote]) == QuoteSection(quotes) + QuoteLine(|quotes| + 1, quote)
  {
    var lines := QuoteLines(quotes + [quote]);
    assert lines[..|quotes|] == QuoteLines(quotes);
    assert lines[..|quotes| + 1] == lines;
    ConcatSnoc(lines, |quotes|);
  }

  /** Quotes are numbered consecutively from 1 in data order. */
  lemma QuotesNumberedInOrder(t: Template, kb: Data, i: int, j: int)
    requires 0 <= i < j < |kb.quotes|
    ensures Precedes(Instruction(t, kb), QuoteLine(i + 1, kb.quotes[i]), QuoteLine(j + 1, kb.quotes[j]))
  {
    var lines := QuoteLines(kb.quotes);
    assert lines[i] == QuoteLine(i + 1, kb.quotes[i]) && lines[j] == QuoteLine(j + 1, kb.quotes[j]);
    HeadedSectionOrder(t, kb, Quotes, QuotesHeader + QuotesIntro, lines, i, j);
  }
}

=== FILE: knowledge_base.dfy ===
/**
 The college data the chatbot is grounded in, as loaded from its JSON file
 (chatbot_logic.py:15-16). Every JSON object whose key order shows in the
 rendered text is a sequence of (key, value) pairs in file order; a key
 the renderer looks up with a default is an `Option`; a key it indexes
 directly is a plain field, so data lacking it cannot be built (the source
 raises `KeyError` at start-up). JSON scalars are carried as the text
 Python's f-strings print for them.
 */
module KnowledgeBase {
  import opened Optional

  /** `college_info`: each field may be missing and then falls back to a default. */
  datatype CollegeInfo = CollegeInfo(
    name: Option<string>,
    department: Option<string>,
    year: Option<string>,
    semester: Option<string>)

  /** One value of `course_details`; all four keys are read without default. */
  datatype Course = Course(name: string, faculty: string, credits: string, courseType: string)

  /** A member of a department in the grouped faculty shape. */
  datatype Member = Member(
    name: string,
    designation: Option<string>,
    subject: string,
    email: Option<string>,
    phone: Option<string>)

  /** One department of the grouped faculty shape: its code and its members in file order. */
  datatype Department = Department(code: string, members: seq<Member>)

  /** An entry of the older flat faculty list; every field is read without default. */
  datatype FlatEntry = FlatEntry(name: string, department: string, subject: string, email: string, phone: string)

  /** The two shapes `faculty` may take: an object keyed by department code, or a list. */
  datatype Faculty =
    | Grouped(departments: seq<Department>)
    | Flat(entries: seq<FlatEntry>)

  /** One value of `exam_timetable`: a date, its exam lines, and an optional note. */
  datatype ExamCategory = ExamCategory(date: string, exams: seq<string>, note: Option<string>)

  datatype Event = Event(name: string, date: string, description: string)

  /** The whole knowledge document. `college` and `courses` are optional top-level keys;
      the other five are required. */
  datatype Data = Data(
    college: Option<CollegeInfo>,
    schedules: seq<(string, string)>,
    courses: Option<seq<(string, Course)>>,
    faculty: Faculty,
    exams: seq<(string, ExamCategory)>,
    events: seq<Event>,
    quotes: seq<string>)
}

=== FILE: optional.dfy ===
/** Optional values: a JSON key that may be missing, or a name that may be unset. */
module Optional {

  datatype Option<+T> = None | Some(value: T) {

    /** The value held, or `default` when there is none (Python's `dict.get(key, default)`). */
    function GetOr(default: T): T {
      match this
      case Some(v) => v
      case None => default
    }
  }
}

=== FILE: session.dfy ===
/**
 One EduBot conversation (`class EduBot`, chatbot_logic.py:11-188): the
 student's name once given, the turns exchanged with the model, and the
 system instruction rendered once at start-up.

 The generative-model call is a parameter `generate` from the prompt to a
 `Generation`: the text the model returned, or the message of the exception
 the call raised. The current date arrives already formatted as `today`.
 Greeting texts keep the exact code points the source file holds.
 */
module Session {
  import opened Optional
  import opened Text
  import opened KnowledgeBase
  import opened ContextBuilder

  datatype Role = User | Model

  /** One entry of `conversation_history`: its role and its single part. */
  datatype Turn = Turn(role: Role, text: string)

  /** The outcome of asking the model: its text, or the message of the error raised. */
  datatype Generation = Generated(text: string) | Failed(error: string)

  /** The state of an `EduBot` object that the conversation changes. */
  datatype EduBot = EduBot(userName: Option<string>, history: seq<Turn>, instruction: string)

  /** What a call hands back: the bot after the call, and the text returned to the caller. */
  datatype Reply = Reply(bot: EduBot, text: string)

  /* ---------------- Fixed texts ---------------- */

  const NameLabel: string := "\n\nSTUDENT'S NAME: "
  const NameReminder: string := "Remember to use their name in your responses!\n"
  const DateLabel: string := "\nTODAY'S DATE: "
  const MessageLabel: string := "\n\nUser message: "

  const ApologyOpening: string := "\U{201A}\U{F6}\U{2020}\U{D4}\U{220F}\U{E8} Sorry, I encountered an error: "
  const ApologyClosing: string := "\nPlease try again or rephrase your question."

  const WelcomeBackOpening: string := "Welcome back, **"
  const WelcomeBackClosing: string := "**! \U{F8FF}\U{FC}\U{F2}\U{E4} How can I assist you today?"
  const HelloPrompt: string :=
    "Hello! \U{F8FF}\U{FC}\U{EB}\U{E3} I'm **EduBot**, your Canara Engineering College assistant. What's your name?"

  const NiceToMeetOpening: string := "Nice to meet you, **"
  const NiceToMeetClosing: string := "**! \U{F8FF}\U{FC}\U{F2}\U{E4}\n\n"
  const ClosingQuestion: string := "What would you like to know?"

  /** The list of topics offered after the name is given, up to the closing question. */
  const HelpMenu: string :=
    "I can help you with:\n\n"
    + "\U{F8FF}\U{FC}\U{EC}\U{D6} **Class Schedules** - CSE 5th Semester timetables\n"
    + "\U{F8FF}\U{FC}\U{EB}\U{AE}\U{201A}\U{C4}\U{E7}\U{F8FF}\U{FC}\U{E8}\U{B4} **Faculty Details** - Contact information by department\n"
    + "\U{F8FF}\U{FC}\U{EC}\U{F9} **Exam Timetable** - Upcoming tests and exams\n"
    + "\U{F8FF}\U{FC}\U{E9}\U{E2} **College Events** - Festivals, workshops, and activities\n"
    + "\U{F8FF}\U{FC}\U{ED}\U{2122} **Motivation** - Inspirational quotes\n"
    + "\U{F8FF}\U{FC}\U{EC}\U{F6} **Course Information** - Faculty, timings, and credits\n\n"

  /* ---------------- State ---------------- */

  /** A freshly constructed bot for the given college data. */
  function Init(kb: Data): EduBot {
    EduBot(None, [], Render(kb))
  }

  /** Python's truthiness of `self.user_name`: set, and not the empty string. */
  predicate HasName(b: EduBot) {
    b.userName.Some? && b.userName.value != ""
  }

  /** Number of turns of the given role. */
  function CountRole(h: seq<Turn>, role: Role): (n: nat)
    ensures n <= |h|
  {
    if |h| == 0 then 0
    else CountRole(h[..|h| - 1], role) + (if h[|h| - 1].role == role then 1 else 0)
  }

  /** Every model turn answers the user turn just before it. */
  predicate WellFormed(h: seq<Turn>) {
    forall i :: 0 <= i < |h| && h[i].role == Model ==> 0 < i && h[i - 1].role == User
  }

  /* ---------------- The prompt ---------------- */

  function NameLine(name: string): string {
    NameLabel + name + "\n"
  }

  /** The name lines, present only when the bot knows a (non-empty) name. */
  function NameBlock(b: EduBot): string {
    if HasName(b) then NameLine(b.userName.value) + NameReminder else ""
  }

  function DateLine(today: string): string {
    DateLabel + today + "\n"
  }

  /** The context: instruction, name lines, date line. */
  function Context(b: EduBot, today: string): string {
    b.instruction + NameBlock(b) + DateLine(today)
  }

  function MessageLine(input: string): string {
    MessageLabel + input
  }

  /** The full prompt sent to the model for one user message. */
  function Prompt(b: EduBot, input: string, today: string): string {
    Context(b, today) + MessageLine(input)
  }

  /** The prompt opens with the system instruction and ends with the user's
      message, verbatim, after its label. */
  lemma PromptFrame(b: EduBot, input: string, today: string)
    ensures ContainsAt(Prompt(b, input, today), b.instruction, 0)
    ensures ContainsAt(Prompt(b, input, today), MessageLabel + input,
                       |Prompt(b, input, today)| - |MessageLabel + input|)
  {
    ClosesWith(Context(b, today), MessageLine(input));
    ContextInPrompt(b, input, today);
  }

  /** The context opens the prompt, and its three parts occur one after the other. */
  lemma ContextInPrompt(b: EduBot, input: string, today: string)
    ensures ContainsAt(Prompt(b, input, today), b.instruction, 0)
    ensures ContainsAt(Prompt(b, input, today), NameBlock(b), |b.instruction|)
    ensures ContainsAt(Prompt(b, input, today), DateLine(today), |b.instruction| + |NameBlock(b)|)
  {
    OpensWith(Context(b, today), MessageLine(input));
    ThreeIn(Prompt(b, input, today), b.instruction, NameBlock(b), DateLine(today), 0);
  }

  /** Right after the instruction comes the student's name line when the bot
      knows a name, and otherwise the date line. */
  lemma PromptNameShown(b: EduBot, input: string, today: string)
    ensures HasName(b) ==>
      ContainsAt(Prompt(b, input, today), NameLabel + b.userName.value + "\n", |b.instruction|)
    ensures !HasName(b) ==>
      ContainsAt(Prompt(b, input, today), DateLine(today), |b.instruction|)
  {
    ContextInPrompt(b, input, today);
    if HasName(b) {
      OpensWith(NameLine(b.userName.value), NameReminder);
      ContainsTrans(Prompt(b, input, today), NameBlock(b), NameLine(b.userName.value), |b.instruction|, 0);
    }
  }

  /** The prompt carries no earlier turns: it is the same whatever the history. */
  lemma PromptIgnoresHistory(b: EduBot, h: seq<Turn>, input: string, today: string)
    ensures Prompt(b.(history := h), input, today) == Prompt(b, input, today)
  {
  }

  /* ---------------- Operations ---------------- */

  /** The apology returned when the model call fails. */
  function Apology(error: string): (r: string)
    ensures ContainsAt(r, ApologyOpening, 0)
    ensures ContainsAt(r, error, |ApologyOpening|)
    ensures ContainsAt(r, ApologyClosing, |ApologyOpening| + |error|)
    ensures |r| == |ApologyOpening| + |error| + |ApologyClosing|
  {
    ThreeParts(ApologyOpening, error, ApologyClosing);
    ApologyOpening + error + ApologyClosing
  }

  /** `get_response`: record the user's message, ask the model with the
      prompt, and on success record and return the model's text. When the
      call fails, the user's turn stays recorded, no model turn is added, and
      the apology quoting the error is returned. Name and instruction never change. */
  function GetResponse(b: EduBot, input: string, today: string, generate: string -> Generation): (r: Reply)
    ensures r.bot.userName == b.userName && r.bot.instruction == b.instruction
    ensures |b.history| < |r.bot.history| && r.bot.history[..|b.history|] == b.history
    ensures r.bot.history[|b.history|] == Turn(User, input)
    ensures generate(Prompt(b, input, today)).Generated? <==> |r.bot.history| == |b.history| + 2
    ensures generate(Prompt(b, input, today)).Generated? ==>
      r.text == generate(Prompt(b, input, today)).text
      && r.bot.history[|b.history| + 1] == Turn(Model, r.text)
    ensures generate(Prompt(b, input, today)).Failed? ==>
      |r.bot.history| == |b.history| + 1
      && r.text == Apology(generate(Prompt(b, input, today)).error)
  {
    var asked := b.(history := b.history + [Turn(User, input)]);
    assert asked.history[..|b.history|] == b.history;
    match generate(Prompt(b, input, today))
    case Generated(text) =>
      var answered := asked.(history := asked.history + [Turn(Model, text)]);
      assert answered.history[..|b.history|] == b.history by {
        assert answered.history[..|b.history|] == asked.history[..|b.history|];
      }
      Reply(answered, text)
    case Failed(e) => Reply(asked, Apology(e))
  }

  /** The welcome shown for the bot's state: a welcome back quoting the name
      when one is known, otherwise the question for the student's name. */
  function WelcomeMessage(b: EduBot): (r: string)
    ensures HasName(b) ==> ContainsAt(r, WelcomeBackOpening, 0)
    ensures HasName(b) ==> ContainsAt(r, b.userName.value, |WelcomeBackOpening|)
    ensures HasName(b) ==> ContainsAt(r, WelcomeBackClosing, |WelcomeBackOpening| + |b.userName.value|)
    ensures HasName(b) ==> |r| == |WelcomeBackOpening| + |b.userName.value| + |WelcomeBackClosing|
    ensures !HasName(b) ==> r == HelloPrompt
  {
    if HasName(b) then
      ThreeParts(WelcomeBackOpening, b.userName.value, WelcomeBackClosing);
      WelcomeBackOpening + b.userName.value + WelcomeBackClosing
    else HelloPrompt
  }

  /** What follows the name in the introduction: the topic list and the closing question. */
  const IntroductionTail: string := NiceToMeetClosing + HelpMenu + ClosingQuestion

  /** The introduction for a student: it opens by quoting the name, then offers the topics. */
  function Introduction(name: string): (r: string)
    ensures ContainsAt(r, NiceToMeetOpening, 0)
    ensures ContainsAt(r, name, |NiceToMeetOpening|)
    ensures ContainsAt(r, IntroductionTail, |NiceToMeetOpening| + |name|)
    ensures |r| == |NiceToMeetOpening| + |name| + |IntroductionTail|
  {
    ThreeParts(NiceToMeetOpening, name, IntroductionTail);
    NiceToMeetOpening + name + IntroductionTail
  }

  /** `set_user_name`: store the name with surrounding whitespace removed and
      return the introduction quoting that name. Nothing else changes. */
  function SetUserName(b: EduBot, raw: string): (r: Reply)
    ensures r.bot.history == b.history && r.bot.instruction == b.instruction
    ensures r.bot.userName.Some? && Trims(raw, r.bot.userName.value, LeadingSpace(raw))
    ensures r.text == Introduction(r.bot.userName.value)
  {
    var name := Strip(raw);
    Reply(b.(userName := Some(name)), Introduction(name))
  }

  /** `clear_history`: forget every turn and the name; the instruction stays. */
  function ClearHistory(b: EduBot): EduBot {
    b.(history := [], userName := None)
  }

  /* ---------------- Properties ---------------- */

  /** A name counts as given exactly when the raw text is not all whitespace:
      a blank answer is stored as the empty string, which reads as no name. */
  lemma NameKnownIffNotBlank(b: EduBot, raw: string)
    ensures HasName(SetUserName(b, raw).bot) <==> !IsBlank(raw)
  {
  }

  /** Setting the name twice keeps only the second one. */
  lemma SetUserNameLastWins(b: EduBot, raw1: string, raw2: string)
    ensures SetUserName(SetUserName(b, raw1).bot, raw2) == SetUserName(b, raw2)
  {
  }

  /** The stored name has no whitespace left to strip. */
  lemma StoredNameIsStripped(b: EduBot, raw: string)
    ensures Strip(SetUserName(b, raw).bot.userName.value) == SetUserName(b, raw).bot.userName.value
  {
    StripIdempotent(raw);
  }

  /** After a non-blank name is given, the welcome greets the student by that name. */
  lemma WelcomeAfterNaming(b: EduBot, raw: string)
    requires !IsBlank(raw)
    ensures ContainsAt(WelcomeMessage(SetUserName(b, raw).bot), Strip(raw), |WelcomeBackOpening|)
  {
    NameKnownIffNotBlank(b, raw);
  }

  /** Clearing a bot built for `kb` gives back a freshly constructed bot. */
  lemma ClearRestoresInit(kb: Data, b: EduBot)
    requires b.instruction == Render(kb)
    ensures ClearHistory(b) == Init(kb)
  {
  }

  /** After clearing, no name is known and no turn is recorded, and clearing again changes nothing. */
  lemma ClearForgets(b: EduBot)
    ensures !HasName(ClearHistory(b)) && ClearHistory(b).history == []
    ensures ClearHistory(ClearHistory(b)) == ClearHistory(b)
    ensures WelcomeMessage(ClearHistory(b)) == HelloPrompt
  {
  }

  lemma {:induction false} CountRoleSnoc(h: seq<Turn>, t: Turn, role: Role)
    ensures CountRole(h + [t], role) == CountRole(h, role) + (if t.role == role then 1 else 0)
  {
    assert (h + [t])[..|h|] == h;
  }

  /** Each call records one more user turn, and one more model turn exactly when
      the model answered; well-formed histories stay well formed. */
  lemma GetResponseCounts(b: EduBot, input: string, today: string, generate: string -> Generation)
    ensures var r := GetResponse(b, input, today, generate);
      CountRole(r.bot.history, User) == CountRole(b.history, User) + 1
      && CountRole(r.bot.history, Model)
         == CountRole(b.history, Model) + (if generate(Prompt(b, input, today)).Generated? then 1 else 0)
    ensures WellFormed(b.history) ==> WellFormed(GetResponse(b, input, today, generate).bot.history)
  {
    var h1 := b.history + [Turn(User, input)];
    CountRoleSnoc(b.history, Turn(User, input), User);
    CountRoleSnoc(b.history, Turn(User, input), Model);
    match generate(Prompt(b, input, today))
    case Generated(text) =>
      CountRoleSnoc(h1, Turn(Model, text), User);
      CountRoleSnoc(h1, Turn(Model, text), Model);
    case Failed(_) =>
  }
}

=== FILE: text.dfy ===
/**
 The string operations the chatbot borrows from Python's `str`: `strip`,
 `upper`, `capitalize`, `title`, `replace` of one character, and `str(n)`
 for a natural number. Case mapping is restricted to ASCII letters; every
 other character is uncased and left as it is.

 The module also holds the layout vocabulary the renderer's properties are
 stated in: `ContainsAt` (a string occurs at a given offset), `Precedes`
 (one string occurs wholly before another) and `Concat` (the `+=` loop that
 builds a text from its parts), with the lemmas that locate each part.
 */
module Text {

  /* ---------------- Whitespace and strip ---------------- */

  /** Python's `str.isspace()` for one character: the ASCII controls TAB..CR and
      FS..US, the space, and the Unicode space separators and line/paragraph
      separators. */
  predicate IsSpace(c: char) {
    || ('\t' <= c <= '\r')
    || ('\U{1C}' <= c <= '\U{1F}')
    || c == ' '
    || c == '\U{85}'
    || c == '\U{A0}'
    || c == '\U{1680}'
    || ('\U{2000}' <= c <= '\U{200A}')
    || c == '\U{2028}'
    || c == '\U{2029}'
    || c == '\U{202F}'
    || c == '\U{205F}'
    || c == '\U{3000}'
  }

  /** Every character of `s` is whitespace (vacuously true of ""). */
  predicate IsBlank(s: string) {
    forall k :: 0 <= k < |s| ==> IsSpace(s[k])
  }

  /** The number of whitespace characters that open `s`. */
  function LeadingSpace(s: string): (n: nat)
    ensures n <= |s|
    ensures forall k :: 0 <= k < n ==> IsSpace(s[k])
    ensures n < |s| ==> !IsSpace(s[n])
  {
    if |s| == 0 || !IsSpace(s[0]) then 0 else 1 + LeadingSpace(s[1..])
  }

  /** The number of whitespace characters that close `s`. */
  function TrailingSpace(s: string): (n: nat)
    ensures n <= |s|
    ensures forall k :: |s| - n <= k < |s| ==> IsSpace(s[k])
    ensures n < |s| ==> !IsSpace(s[|s| - n - 1])
  {
    if |s| == 0 || !IsSpace(s[|s| - 1]) then 0 else 1 + TrailingSpace(s[..|s| - 1])
  }

  /** `r` is what is left of `s` after dropping whitespace on both ends, and
      it starts at offset `i` of `s`. */
  ghost predicate Trims(s: string, r: string, i: int) {
    && 0 <= i && i + |r| <= |s|
    && s[i..i + |r|] == r
    && (forall k :: 0 <= k < i ==> IsSpace(s[k]))
    && (forall k :: i + |r| <= k < |s| ==> IsSpace(s[k]))
    && (r != [] ==> !IsSpace(r[0]) && !IsSpace(r[|r| - 1]))
  }

  /** Python's `s.strip()` with no argument. */
  function Strip(s: string): (r: string)
    ensures Trims(s, r, LeadingSpace(s))
    ensures r == [] <==> IsBlank(s)
  {
    var t := s[LeadingSpace(s)..];
    var r := t[..|t| - TrailingSpace(t)];
    assert r != [] ==> r[0] == t[0];
    assert IsBlank(s) ==> LeadingSpace(s) == |s|;
    r
  }

  /** Stripping twice is stripping once. */
  lemma StripIdempotent(s: string)
    ensures Strip(Strip(s)) == Strip(s)
  {
    var r := Strip(s);
    if r != [] {
      assert LeadingSpace(r) == 0;
      assert TrailingSpace(r) == 0;
    }
  }

  /* ---------------- ASCII case mapping ---------------- */

  predicate IsLower(c: char) { 'a' <= c <= 'z' }

  predicate IsUpper(c: char) { 'A' <= c <= 'Z' }

  /** A cased character in the sense of Python's `title`, restricted to ASCII. */
  predicate IsLetter(c: char) { IsLower(c) || IsUpper(c) }

  function UpperChar(c: char): (u: char)
    ensures !IsLower(u)
    ensures IsLetter(u) <==> IsLetter(c)
    ensures !IsLetter(c) ==> u == c
    ensures IsLower(c) ==> u as int == c as int - 32
  {
    if IsLower(c) then (c as int - 32) as char else c
  }

  function LowerChar(c: char): (l: char)
    ensures !IsUpper(l)
    ensures IsLetter(l) <==> IsLetter(c)
    ensures !IsLetter(c) ==> l == c
    ensures IsUpper(c) ==> l as int == c as int + 32
  {
    if IsUpper(c) then (c as int + 32) as char else c
  }

  /** Python's `s.upper()`. */
  function Upper(s: string): (r: string)
    ensures |r| == |s|
    ensures forall i :: 0 <= i < |s| ==> r[i] == UpperChar(s[i])
  {
    if |s| == 0 then [] else [UpperChar(s[0])] + Upper(s[1..])
  }

  /** Python's `s.lower()`. */
  function Lower(s: string): (r: string)
    ensures |r| == |s|
    ensures forall i :: 0 <= i < |s| ==> r[i] == LowerChar(s[i])
  {
    if |s| == 0 then [] else [LowerChar(s[0])] + Lower(s[1..])
  }

  /** Python's `s.capitalize()`: the first character upper-cased, all others lower-cased. */
  function Capitalize(s: string): (r: string)
    ensures |r| == |s|
    ensures |s| > 0 ==> r[0] == UpperChar(s[0])
    ensures forall i :: 1 <= i < |s| ==> r[i] == LowerChar(s[i])
  {
    if |s| == 0 then [] else [UpperChar(s[0])] + Lower(s[1..])
  }

  /** Python's `s.title()`: the scan keeps whether the previous character was
      cased, upper-casing a character after an uncased one and lower-casing it
      after a cased one; under ASCII case mapping the cased characters are the letters. */
  function Title(s: string): (r: string)
    ensures |r| == |s|
    ensures forall i :: 0 <= i < |s| && IsLetter(s[i]) ==>
      (IsUpper(r[i]) <==> i == 0 || !IsLetter(s[i - 1]))
    ensures forall i :: 0 <= i < |s| && !IsLetter(s[i]) ==> r[i] == s[i]
    ensures forall i :: 0 <= i < |s| ==> LowerChar(r[i]) == LowerChar(s[i])
  {
    var r := seq(|s|, i requires 0 <= i < |s| =>
      if i == 0 || !IsLetter(s[i - 1]) then UpperChar(s[i]) else LowerChar(s[i]));
    forall i | 0 <= i < |s|
      ensures LowerChar(r[i]) == LowerChar(s[i])
      ensures IsLetter(s[i]) ==> (IsUpper(r[i]) <==> i == 0 || !IsLetter(s[i - 1]))
    {
      SameLetter(s[i]);
    }
    r
  }

  /** Changing case keeps the letter: both mappings agree after lower-casing. */
  lemma SameLetter(c: char)
    ensures LowerChar(UpperChar(c)) == LowerChar(c)
    ensures LowerChar(LowerChar(c)) == LowerChar(c)
    ensures IsLetter(c) ==> IsUpper(UpperChar(c)) && !IsUpper(LowerChar(c))
  {
  }

  /** Python's `s.replace(a, b)` for single characters `a` and `b`. */
  function ReplaceChar(s: string, a: char, b: char): (r: string)
    ensures |r| == |s|
    ensures forall i :: 0 <= i < |s| ==> r[i] == (if s[i] == a then b else s[i])
  {
    if |s| == 0 then [] else [if s[0] == a then b else s[0]] + ReplaceChar(s[1..], a, b)
  }

  /* ---------------- Decimal numerals ---------------- */

  predicate IsDigit(c: char) { '0' <= c <= '9' }

  function DigitChar(d: nat): (c: char)
    requires d < 10
    ensures IsDigit(c)
  {
    ('0' as int + d) as char
  }

  function DigitValue(c: char): (d: nat)
    requires IsDigit(c)
    ensures d < 10
  {
    c as int - '0' as int
  }

  /** Python's `str(n)` for a natural number. */
  function NatToString(n: nat): (r: string)
    ensures |r| > 0
    ensures forall i :: 0 <= i < |r| ==> IsDigit(r[i])
    ensures r[0] == '0' ==> r == "0"
  {
    if n < 10 then [DigitChar(n)] else NatToString(n / 10) + [DigitChar(n % 10)]
  }

  /** The number a string of decimal digits denotes. */
  function DigitsValue(s: string): nat
    requires forall i :: 0 <= i < |s| ==> IsDigit(s[i])
  {
    if |s| == 0 then 0 else 10 * DigitsValue(s[..|s| - 1]) + DigitValue(s[|s| - 1])
  }

  /** Reading back the numeral `str(n)` gives `n`: numbering is injective. */
  lemma {:induction false} NatToStringRoundTrip(n: nat)
    ensures DigitsValue(NatToString(n)) == n
  {
    if n >= 10 {
      var s := NatToString(n);
      assert s[..|s| - 1] == NatToString(n / 10);
      NatToStringRoundTrip(n / 10);
    }
  }

  /** Distinct numbers have distinct numerals. */
  lemma NatToStringInjective(m: nat, n: nat)
    requires m != n
    ensures NatToString(m) != NatToString(n)
  {
    NatToStringRoundTrip(m);
    NatToStringRoundTrip(n);
  }

  /* ---------------- Layout: occurrence, order, concatenation ---------------- */

  /** `t` occurs in `s` starting at offset `k`. */
  predicate ContainsAt(s: string, t: string, k: int) {
    0 <= k && k + |t| <= |s| && s[k..k + |t|] == t
  }

  /** `x` occurs in `s` and ends before an occurrence of `y` begins. */
  ghost predicate Precedes(s: string, x: string, y: string) {
    exists p, q {:trigger ContainsAt(s, x, p), ContainsAt(s, y, q)} ::
      p + |x| <= q && ContainsAt(s, x, p) && ContainsAt(s, y, q)
  }

  lemma ContainsMiddle(a: string, b: string, c: string)
    ensures ContainsAt(a + b + c, b, |a|)
  {
    assert (a + b + c)[|a|..|a| + |b|] == b;
  }

  /** The head of a concatenation occurs at its start. */
  lemma OpensWith(a: string, b: string)
    ensures ContainsAt(a + b, a, 0)
  {
    assert (a + b)[..|a|] == a;
  }

  /** The tail of a concatenation occurs where the head ends. */
  lemma ClosesWith(a: string, b: string)
    ensures ContainsAt(a + b, b, |a|)
  {
    assert (a + b)[|a|..] == b;
  }

  /** Each of three appended pieces occurs where it was appended. */
  lemma ThreeParts(a: string, b: string, c: string)
    ensures ContainsAt(a + b + c, a, 0)
    ensures ContainsAt(a + b + c, b, |a|)
    ensures ContainsAt(a + b + c, c, |a| + |b|)
  {
    assert (a + b + c)[..|a|] == a;
    assert (a + b + c)[|a|..|a| + |b|] == b;
    assert (a + b + c)[|a| + |b|..] == c;
  }

  /** An occurrence inside an occurrence is an occurrence. */
  lemma ContainsTrans(s: string, t: string, u: string, i: int, j: int)
    requires ContainsAt(s, t, i) && ContainsAt(t, u, j)
    ensures ContainsAt(s, u, i + j)
  {
    forall k | 0 <= k < |u|
      ensures s[i + j + k] == u[k]
    {
      assert s[i + (j + k)] == t[j + k];
    }
  }

  /** Where three appended pieces occur inside an occurrence of their concatenation. */
  lemma ThreeIn(s: string, a: string, b: string, c: string, p: int)
    requires ContainsAt(s, a + b + c, p)
    ensures ContainsAt(s, a, p)
    ensures ContainsAt(s, b, p + |a|)
    ensures ContainsAt(s, c, p + |a| + |b|)
  {
    ThreeParts(a, b, c);
    ContainsTrans(s, a + b + c, a, p, 0);
    ContainsTrans(s, a + b + c, b, p, |a|);
    ContainsTrans(s, a + b + c, c, p, |a| + |b|);
  }

  /** An order inside an occurrence of `t` is an order in `s`. */
  lemma PrecedesWithin(s: string, t: string, i: int, x: string, y: string)
    requires ContainsAt(s, t, i) && Precedes(t, x, y)
    ensures Precedes(s, x, y)
  {
    var p, q :| p + |x| <= q && ContainsAt(t, x, p) && ContainsAt(t, y, q);
    ContainsTrans(s, t, x, i, p);
    ContainsTrans(s, t, y, i, q);
  }

  /** Prefixes of ordered strings are ordered. */
  lemma PrecedesPrefixes(s: string, x: string, y: string, x': string, y': string)
    requires Precedes(s, x, y)
    requires ContainsAt(x, x', 0) && ContainsAt(y, y', 0)
    ensures Precedes(s, x', y')
  {
    var p, q :| p + |x| <= q && ContainsAt(s, x, p) && ContainsAt(s, y, q);
    ContainsTrans(s, x, x', p, 0);
    ContainsTrans(s, y, y', q, 0);
  }

  /** The text built by appending `parts` in order. */
  function Concat(parts: seq<string>): string {
    if |parts| == 0 then "" else parts[0] + Concat(parts[1..])
  }

  /** Where the `i`-th part starts in `Concat(parts)`. */
  function Offset(parts: seq<string>, i: nat): nat
    requires i <= |parts|
  {
    |Concat(parts[..i])|
  }

  lemma {:induction false} ConcatAppend(a: seq<string>, b: seq<string>)
    ensures Concat(a + b) == Concat(a) + Concat(b)
  {
    if |a| > 0 {
      assert (a + b)[1..] == a[1..] + b;
      ConcatAppend(a[1..], b);
    } else {
      assert a + b == b;
    }
  }

  /** Appending one more part appends its text. */
  lemma ConcatSnoc(parts: seq<string>, i: nat)
    requires i < |parts|
    ensures Concat(parts[..i + 1]) == Concat(parts[..i]) + parts[i]
  {
    assert parts[..i + 1] == parts[..i] + [parts[i]];
    ConcatAppend(parts[..i], [parts[i]]);
    assert [parts[i]][1..] == [];
  }

  /** The `i`-th part occurs at its offset. */
  lemma ConcatPartAt(parts: seq<string>, i: nat)
    requires i < |parts|
    ensures ContainsAt(Concat(parts), parts[i], Offset(parts, i))
  {
    var rest := parts[i..];
    assert parts == parts[..i] + rest;
    ConcatAppend(parts[..i], rest);
    assert rest[1..] == parts[i + 1..];
    assert Concat(rest) == parts[i] + Concat(parts[i + 1..]);
    ContainsMiddle(Concat(parts[..i]), parts[i], Concat(parts[i + 1..]));
  }

  /** Parts are laid out in order: the `i`-th ends before the `j`-th starts. */
  lemma ConcatOrder(parts: seq<string>, i: nat, j: nat)
    requires i < j < |parts|
    ensures Offset(parts, i) + |parts[i]| <= Offset(parts, j)
    ensures Precedes(Concat(parts), parts[i], parts[j])
  {
    assert parts[..j] == parts[..i] + [parts[i]] + parts[i + 1..j];
    ConcatAppend(parts[..i] + [parts[i]], parts[i + 1..j]);
    ConcatAppend(parts[..i], [parts[i]]);
    assert Concat([parts[i]]) == parts[i] by {
      assert [parts[i]][1..] == [];
    }
    ConcatPartAt(parts, i);
    ConcatPartAt(parts, j);
  }

  /** What occurs in `c` at `o` occurs in `h + c` at `|h| + o`, after `h`. */
  lemma AfterHead(h: string, c: string, x: string, o: int)
    requires ContainsAt(c, x, o)
    ensures ContainsAt(h + c, x, |h| + o)
    ensures Precedes(h + c, h, x)
  {
    ClosesWith(h, c);
    ContainsTrans(h + c, c, x, |h|, o);
    OpensWith(h, c);
    assert ContainsAt(h + c, h, 0) && 0 + |h| <= |h| + o;
  }

  /** The `i`-th part of a headed list `h + Concat(parts)` sits after the heading and
      every earlier part. */
  lemma {:induction false} HeadedPartAt(h: string, parts: seq<string>, i: nat)
    requires i < |parts|
    ensures ContainsAt(h + Concat(parts), parts[i], |h| + Offset(parts, i))
    ensures Precedes(h + Concat(parts), h, parts[i])
  {
    ConcatPartAt(parts, i);
    AfterHead(h, Concat(parts), parts[i], Offset(parts, i));
  }

  /** In a headed list, earlier parts come first. */
  lemma HeadedOrder(h: string, parts: seq<string>, i: nat, j: nat)
    requires i < j < |parts|
    ensures Precedes(h + Concat(parts), parts[i], parts[j])
  {
    ConcatOrder(parts, i, j);
    ClosesWith(h, Concat(parts));
    PrecedesWithin(h + Concat(parts), Concat(parts), |h|, parts[i], parts[j]);
  }

  /** A headed list occurring in `r` at `pos` places each part after the heading,
      within the list's span. */
  lemma HeadedListIn(r: string, pos: int, h: string, parts: seq<string>, i: nat) returns (q: int)
    requires ContainsAt(r, h + Concat(parts), pos)
    requires i < |parts|
    ensures ContainsAt(r, parts[i], q)
    ensures pos + |h| <= q && q + |parts[i]| <= pos + |h + Concat(parts)|
    ensures Precedes(r, h, parts[i])
  {
    HeadedPartAt(h, parts, i);
    OpensWith(h, Concat(parts));
    ContainsTrans(r, h + Concat(parts), h, pos, 0);
    q := pos + |h| + Offset(parts, i);
    ContainsTrans(r, h + Concat(parts), parts[i], pos, |h| + Offset(parts, i));
  }

  /** A headed list occurring in `r` keeps its parts in order there. */
  lemma HeadedOrderIn(r: string, pos: int, h: string, parts: seq<string>, i: nat, j: nat)
    requires ContainsAt(r, h + Concat(parts), pos)
    requires i < j < |parts|
    ensures Precedes(r, parts[i], parts[j])
  {
    HeadedOrder(h, parts, i, j);
    PrecedesWithin(r, h + Concat(parts), pos, parts[i], parts[j]);
  }
}
